=== FILE: README.md ===
# Ceremony money app: offline sync and form logic of `AppComponent`

This project models, in Dafny, the core of the ceremony contribution tracker's
single Angular component, `AppComponent` (`src/app/app.component.ts`).
The app records events (weddings, house-warmings and so on), the people
invited to them (participants), and the gifts of money they bring
(contributions). Its core is an offline-first write path. When the network
is down, each new record goes into a FIFO queue of pending writes. A
`SyncStatus` record shows online/offline, the last sync time, the number of
pending changes and a syncing flag. A 30-second timer, a manual "sync now"
button, the network listener and a manual offline toggle all drive that
queue.

What is modelled:

- **Sync state machine** (`Sync`, `SyncTrace`). The state is the status, the
  queue and the manual-offline flag. Each transition is one pure function:
  `addPendingWrite`, `syncPendingChanges`, the periodic tick, `manualSync`,
  `handleNetworkChange` and `toggleOfflineMode`. `SyncTrace` runs arbitrary
  sequences of these inputs and proves properties along every run.
- **Record producers** (`App`). `addEvent`, `addParticipantToEvent` and
  `addContributionToEvent` put the record in the local list when online, or
  queue it marked `_pendingSync` when offline. The form guards of
  `createEvent`, `addParticipant` and `addContribution` sit in front of
  them. The module also covers the totals and `resetAppState`.
- **Records and ids** (`Records`). These are the record types, the
  pending-write entry and the `local_<time>_<suffix>` id format, with a
  parser that inverts it.
- **Sign-in helpers** (`Auth`). These are the e-mail and phone validators,
  the OTP request/verify guards, the accepted mock code, and the 60-second
  resend countdown.
- **Bulk SMS** (`Sms`). This covers the selection toggle, select-all and
  deselect-all, the choice of recipients, and the `{{…}}` placeholder
  substitution.
- **JavaScript built-ins the code relies on** (`Text`, `Seqs`). These are
  `trim` with the ECMAScript whitespace set, `String.prototype.replace` with a
  global literal pattern (including its `$$`, `$&`, `` $` ``, `$'` expansion
  of the replacement), UTF-16 `length`, number-to-decimal conversion,
  `indexOf` and `filter`.

Environment readings are parameters of the transitions: the debounced
reachability value, `navigator.onLine`, `Date.now()` and the random id
suffixes.

The model follows the code as written, including the places where the
code's own structure shows a different intent:

- A reconnect does not flush the queue. The reconnect branch of
  `handleNetworkChange` (`src/app/app.component.ts:1904-1906`) calls
  `syncPendingChanges`, so a flush was evidently meant to run there, but the
  call comes before `online` is updated, and the flush's guard
  (`src/app/app.component.ts:1958`) sees the stale offline status.
  The queue waits for the next timer tick, and `syncing` stays true meanwhile
  (`Sync.ReconnectNeverFlushes`, `SyncTrace.ReconnectThenTickFlushes`).
- A network signal overrides manual offline mode. With the flag set, a
  reachable signal still shows the status as online
  (`Sync.NetworkOverridesManualOffline`).
- "`syncing` implies `online`" is not kept. Toggling manual offline mode on
  while `syncing` is true turns `online` off and leaves `syncing` set
  (`Sync.ToggleBreaksSyncingOnlyOnline`,
  `SyncTrace.SyncingWhileOfflineIsReachable`).
- `resetAppState` empties the queue but does not recompute `pendingChanges`,
  so the count can disagree with the queue (`App.ResetBreaksCount`,
  `App.StaleCountPersists`).
- The template text at `src/app/app.component.ts:680` names `{{amount}}`
  beside the substituted placeholders, but it is never substituted
  (`Sms.AmountNeverSubstituted`).
- `retryCount` is always 0. Nothing increments it and no write is ever
  retried one by one.

## Model

| member | source | states |
|---|---|---|
| Sync.Init | src/app/app.component.ts:933-938 | The component starts online, not syncing, never synced, with an empty queue, a zero count and manual offline mode off. |
| Sync.SyncPendingChanges | src/app/app.component.ts:1957-1976 | Does nothing when the queue is empty or the status says offline. Otherwise it empties the whole queue, stamps `lastSync` with the current time, zeroes the count, clears `syncing` and keeps the online flag and the manual-offline flag. |
| Sync.AddPendingWrite | src/app/app.component.ts:1936-1955 | Offline, the write is appended at the end of the queue with the current timestamp and retry count 0, and the count becomes the old length plus one. Online, the write is flushed at once: the queue is empty, the count is 0 and `lastSync` is now. The online flag and the manual flag never change. |
| Sync.PeriodicTick | src/app/app.component.ts:1925-1934 | A tick flushes exactly when online with something queued, and otherwise leaves the state untouched. |
| Sync.ManualSync | src/app/app.component.ts:1978-1985 | Refused (NotOnline) exactly when the status is offline, with no state change. Otherwise it is exactly the flush step: the queue ends empty, the status stays online, and the flush's count, `syncing` and `lastSync` effects apply. |
| Sync.HandleNetworkChange | src/app/app.component.ts:1903-1915 | The queue, count, `lastSync` and manual flag are unchanged. `online` becomes the signal, and `syncing` holds exactly when the signal is online and writes are queued. |
| Sync.ToggleOfflineMode | src/app/app.component.ts:1987-1999 | From online, it only sets manual offline and clears `online`. From offline, `online` becomes the reachability, the manual flag clears, and the queue is flushed exactly when the network is reachable or nothing was queued. When it flushes, `lastSync` is now, the count is 0 and `syncing` is cleared. When it does not flush, the queue and the rest of the status (`lastSync`, count, `syncing`) are kept, so an unreachable toggle can leave `syncing` set. |
| Sync.CountAgreesPreserved | src/app/app.component.ts:1936-1999 | If the pending count equals the queue length before a transition, it still does after any of the six transitions. |
| Sync.FlushRepairsCount | src/app/app.component.ts:1967-1973 | A flush that runs leaves count and queue in agreement even if they disagreed before. |
| Sync.PeriodicTickIsFlush | src/app/app.component.ts:1927-1931 | The timer's guard repeats the flush's own guard: a tick equals the flush step. |
| Sync.ReconnectNeverFlushes | src/app/app.component.ts:1903-1912 | Coming back online with writes queued keeps the queue and `lastSync` as they were and sets `syncing`. |
| Sync.NetworkOverridesManualOffline | src/app/app.component.ts:1903-1912 | With manual offline mode set, a reachable signal still turns the status online and leaves the flag set. |
| Sync.SyncingOnlyOnlinePreserved | src/app/app.component.ts:1903-1999 | "`syncing` implies `online`" is kept by enqueue, flush, tick, manual sync, network change, and the toggle from offline. |
| Sync.ToggleBreaksSyncingOnlyOnline | src/app/app.component.ts:1987-1993 | Toggling into manual offline mode while syncing gives a state that is syncing and offline. |
| SyncTrace.Startup | src/app/app.component.ts:1878-1892 | After construction, the immediate timer tick and the initial reachability value, the status follows reachability, with an empty queue, a zero count, not syncing and never synced. |
| SyncTrace.CountAgreesAlongRun | src/app/app.component.ts:1936-1999 | Along any sequence of inputs, the pending count keeps agreeing with the queue length. |
| SyncTrace.StepKeepsOrFlushes | src/app/app.component.ts:1936-1999 | No step loses or reorders a write: either the old queue remains a prefix of the new one, or the whole queue was flushed with `lastSync` set to the step's time. |
| SyncTrace.OfflineEnqueuesAreFifo | src/app/app.component.ts:1936-1950 | While offline, a run of enqueues appends exactly those writes, in order. The status stays offline and the count tracks the queue. |
| SyncTrace.ReconnectThenTickFlushes | src/app/app.component.ts:1903-1934 | Queue offline, then reconnect: the write is still pending while the status shows online and syncing. The next tick empties the queue, zeroes the count, clears `syncing` and records the tick's time. |
| SyncTrace.OfflineTicksDoNothing | src/app/app.component.ts:1925-1985 | While offline, a timer tick and a manual sync leave the state unchanged. |
| SyncTrace.ToggleRoundTripFlushesOnce | src/app/app.component.ts:1987-1999 | Toggle to manual offline, queue some writes, toggle back with the network reachable: the writes are queued in order while offline, and the toggle back flushes them all in one step, stamps its time and zeroes the count. |
| SyncTrace.ManualFlagSurvivesEnqueues | src/app/app.component.ts:1936-1955 | Enqueues never change the manual-offline flag. |
| SyncTrace.SyncingWhileOfflineIsReachable | src/app/app.component.ts:1903-1999 | From start-up, the inputs go offline, enqueue, reconnect, toggle manual offline. They reach a state that is syncing, offline and in manual mode, with one write queued. |
| App.AddEvent | src/app/app.component.ts:1367-1385 | Every event carries the form's name, type, date, location and target, the current time as creation time, the owner `UserIdOf(uid)`, and the `_localId` `LocalId(now, localSuffix)`. Online, exactly one such event is appended, and its `id`, which is returned, is `LocalId(now, idSuffix)`. The sync state is unchanged. Offline, the list is unchanged and exactly one write for `events` is queued, marked pending. The returned id is the `_localId`. The queued write is stamped with the current time and retry count 0, the count becomes the new queue length, the status stays offline and not syncing, and `lastSync` is kept. The other lists are never touched. |
| App.CreateEvent | src/app/app.component.ts:1237-1265 | Refused with MissingFields exactly when the name or date is empty. Otherwise the result is that of adding the event. |
| App.AddParticipantToEvent | src/app/app.component.ts:1387-1401 | Every participant is for the given event and carries the form's name, phone, e-mail and place, the owner `UserIdOf(uid)`, and the `_localId` `LocalId(now, localSuffix)`. Online, one such participant is appended with the `id` `LocalId(now, idSuffix)`. Offline, exactly one `participants` write is queued, marked pending. The queued write is stamped with the current time and retry count 0, the count becomes the new queue length, the status stays offline and not syncing, and `lastSync` is kept. The other lists are never touched. |
| App.AddedParticipantIsFound | src/app/app.component.ts:1313-1401 | A participant added online under an id no listed participant has is the one that a later contribution's lookup of that id finds. |
| App.AddParticipant | src/app/app.component.ts:1267-1299 | NoEventSelected exactly when no event is selected. MissingFields exactly when one is selected but the name or phone is empty. Otherwise the participant is added to the selected event. |
| App.FindParticipant | src/app/app.component.ts:1313 | Finds nothing exactly when no listed participant has the id. Otherwise it returns the first participant with that id. |
| App.AddContributionToEvent | src/app/app.component.ts:1313-1417 | Every contribution is for the given event and carries the form's participant id, amount, payment method and notes, the current time as date, the owner `UserIdOf(uid)`, and the `_localId` `LocalId(now, localSuffix)`. Its participant name, phone and place are those of the first listed participant with that id, and absent when there is none. Online, one such contribution is appended with the `id` `LocalId(now, idSuffix)`. Offline, exactly one `contributions` write is queued, marked pending. The queued write is stamped with the current time and retry count 0, the count becomes the new queue length, the status stays offline and not syncing, and `lastSync` is kept. The other lists are never touched. |
| App.AddContribution | src/app/app.component.ts:1301-1343 | NoEventSelected exactly when no event is selected. MissingFields exactly when the participant id is empty or the amount is zero, so a negative amount is accepted. Otherwise the contribution is added to the selected event. |
| App.TotalCollected | src/app/app.component.ts:1351-1353 | The sum of the amounts of the listed contributions. Its behaviour is stated by `App.TotalCollectedConcat` and `App.TotalCollectedSwap`: it adds over concatenation and ignores order. |
| App.RemainingAmount | src/app/app.component.ts:1360-1363 | The target minus the total collected, or 0 without a selected event or a target. Its behaviour is stated by `App.RemainingAfterMore`. |
| App.TotalCollectedConcat | src/app/app.component.ts:1351-1353 | The total of two concatenated lists is the sum of their totals. |
| App.TotalCollectedSwap | src/app/app.component.ts:1351-1353 | The total does not depend on the order of the contributions. |
| App.RemainingAfterMore | src/app/app.component.ts:1351-1363 | With a non-zero target, further contributions lower the remaining amount by their total, so it goes negative once the target is exceeded. Without an event or target it stays 0. With no contributions it is the whole target. |
| App.ContributionMovesTotals | src/app/app.component.ts:1301-1363 | An accepted online contribution raises the total by its amount and, with a non-zero target, lowers the remaining amount by the same. An offline one leaves the total unchanged. |
| App.OnlineIdsDiffer | src/app/app.component.ts:1367-1380 | An event created online carries an `id` and a `_localId` that differ whenever the two random suffixes differ. |
| App.ResetAppState | src/app/app.component.ts:2003-2011 | All lists, the selected event and the queue are cleared. The sync status, the manual flag and the user are kept. |
| App.ResetBreaksCount | src/app/app.component.ts:2003-2011 | Resetting with writes queued leaves a positive pending count beside an empty queue. |
| App.StaleCountPersists | src/app/app.component.ts:1957-1999 | With the queue empty, no input other than an enqueue changes the count or the queue, so a stale count survives every tick, sync, network change and toggle. |
| Records.UserIdOf | src/app/app.component.ts:1370 | The record's owner is the user's uid when there is a user with a non-empty uid, and `mock-user` otherwise. It is never empty. |
| Records.LocalId | src/app/app.component.ts:1419-1421 | Parsing a generated local id gives back the clock reading and the suffix it was built from. |
| Records.ParsedLocalIdIsLocalId | src/app/app.component.ts:1419-1421 | Whatever parses as a local id is exactly the id generated from the parsed parts. |
| Records.LocalIdInjective | src/app/app.component.ts:1419-1421 | Two generated local ids are equal exactly when the times and the suffixes are equal. |
| Text.Trim | src/app/app.component.ts:1076 | The trimmed string is the slice of the input between an all-whitespace prefix and an all-whitespace suffix. It is empty exactly when the input is all ECMAScript whitespace, and a non-empty result starts and ends with non-whitespace. |
| Text.Utf16Length | src/app/app.component.ts:1101 | The length `otp.length` reads lies between the number of code points and twice that, and equals it exactly when every character is in the Basic Multilingual Plane. |
| Text.DecimalRoundTrip | src/app/app.component.ts:1420 | Reading back the decimal text of a clock value gives the value. |
| Text.CanonicalDecimalRoundTrip | src/app/app.component.ts:1420 | Any canonical decimal text (no leading zero) is the decimal text of its value. |
| Text.ExpandLiteral | src/app/app.component.ts:1595-1599 | A replacement text without `$` is inserted literally. |
| Text.ReplaceAllAbsent | src/app/app.component.ts:1595-1599 | A global replace of a pattern that does not occur leaves the text unchanged. |
| Text.ReplaceAllOnce | src/app/app.component.ts:1595-1599 | A single occurrence of the pattern, whose first character appears nowhere else, is replaced by the expanded replacement and the text around it is kept. |
| Text.ReplaceAllWhole | src/app/app.component.ts:1595-1599 | Replacing a pattern in the pattern itself gives the expanded replacement. |
| Seqs.IndexOf | src/app/app.component.ts:1547 | No index exactly when the element is absent. Otherwise the index holds the element and no earlier index does. |
| Seqs.Filter | src/app/app.component.ts:1584 | Every element that passes the test is kept as many times as it occurs in the input, and every other element is dropped. |
| Seqs.FilterIsSubsequence | src/app/app.component.ts:1578-1584 | A filtered list keeps its elements in their original order. |
| Auth.EmailScanAgrees | src/app/app.component.ts:1171-1174 | The e-mail pattern accepts exactly the strings a left-to-right scan accepts: a non-empty local part without `@` or whitespace, then the first `@`, then a domain without `@` or whitespace holding a `.` that is neither its first nor its last character. |
| Auth.IsEmail | src/app/app.component.ts:1171-1174 | The e-mail pattern. Its meaning is stated by `Auth.EmailScanAgrees`. |
| Auth.Digits | src/app/app.component.ts:1178 | Stripping the non-digits leaves only digits and never lengthens the text. |
| Auth.IsPhoneNumber | src/app/app.component.ts:1176-1179 | The phone pattern, applied to the digits of the contact. Its meaning is stated by `Auth.PhoneCharacterization` and `Auth.PhoneIgnoresNonDigits`. |
| Auth.DigitsConcat | src/app/app.component.ts:1178 | Stripping non-digits distributes over concatenation. |
| Auth.DigitsOfDigits | src/app/app.component.ts:1178 | Stripping non-digits from a string of digits changes nothing. |
| Auth.PhoneCharacterization | src/app/app.component.ts:1176-1179 | A phone number is accepted exactly when its digits, taken in order, are 1 to 16 digits that do not start with 0. The pattern's optional `+` never matches. |
| Auth.PhoneIgnoresNonDigits | src/app/app.component.ts:1176-1179 | Inserting or removing any non-digit character anywhere never changes the verdict. |
| Auth.TimerTick | src/app/app.component.ts:1186-1193 | A running countdown goes down by one. It stops and allows a resend exactly when it reaches zero, and before that the resend flag is kept. A stopped one does not change. |
| Auth.StartTimer | src/app/app.component.ts:1182-1185 | A fresh countdown: 60 seconds, running, no resend allowed. How it runs down is stated by `Auth.CountdownFromStart`. |
| Auth.CountdownFromStart | src/app/app.component.ts:1182-1194 | After k seconds the countdown shows 60 - k and is still running. From the sixtieth second on, it shows 0, is stopped, and allows a resend. |
| Auth.ResetAuthData | src/app/app.component.ts:1211-1226 | Back to the contact step with contact, code and display name cleared, the method back to SMS, and the countdown stopped at 0 without resend. |
| Auth.BackToInput | src/app/app.component.ts:1202-1209 | Back to the contact step with the code cleared and the interval stopped. The contact, the display name, the method shown, the countdown value and the resend flag are kept. |
| Auth.RequestOtp | src/app/app.component.ts:1075-1142 | A blank contact is refused and changes nothing. A code is sent exactly when the contact is a valid e-mail or phone number, by e-mail exactly when it is a valid e-mail. A send moves to the code step and restarts the countdown. The method shown is e-mail exactly when the contact contains `@`. The contact, the code entry and the display name are never changed. |
| Auth.MethodAndChannelCanDisagree | src/app/app.component.ts:1082-1133 | For the contact `1@2`, the method shown is e-mail while the code goes by SMS. |
| Auth.ResendOtp | src/app/app.component.ts:1196-1200 | A resend does nothing until the countdown allows it. Then its new state and its outcome are exactly those of a fresh request. |
| Auth.VerifyOtp | src/app/app.component.ts:1100-1165 | The entry is rejected as malformed exactly when it is blank or not six UTF-16 units long. A successful sign-in resets the form. Any other outcome leaves the state unchanged. |
| Auth.OtpAcceptedIff | src/app/app.component.ts:1101-1147 | Sign-in succeeds exactly when the entry is `123456`. |
| Auth.LoggedInUserName | src/app/app.component.ts:1107-1153 | The signed-in mock user is named with the trimmed display name, or `User` when that is blank. |
| Sms.Toggle | src/app/app.component.ts:1546-1553 | An unselected id is appended at the end. A selected id loses its first occurrence, with the other entries kept in order. No other id changes membership. Without duplicates there are still none afterwards, and the toggled id's membership flips. |
| Sms.ToggleTwice | src/app/app.component.ts:1546-1553 | Toggling an unselected id twice restores the exact selection. Toggling a selected id twice, with no duplicates, keeps the same ids. |
| Sms.SelectAll | src/app/app.component.ts:1555-1557 | The selection becomes the ids of all listed participants, in list order. |
| Sms.DeselectAll | src/app/app.component.ts:1559-1561 | The selection becomes empty. |
| Sms.BulkRecipients | src/app/app.component.ts:1563-1590 | Stops with EmptyMessage exactly for a blank message, and with NoneSelected exactly for an empty selection in selected mode. On success, the recipients are exactly the listed participants the mode picks that have a non-blank phone, in list order, each as many times as it is listed. NoRecipients means no participant qualifies. |
| Sms.SelectAllMatchesAll | src/app/app.component.ts:1555-1584 | After select-all, selected mode reaches exactly the recipients all mode reaches. |
| Sms.DeselectAllSendsNothing | src/app/app.component.ts:1559-1577 | After deselect-all, selected mode never sends. |
| Sms.Personalize | src/app/app.component.ts:1594-1599 | The five global replacements of `{{name}}`, `{{eventName}}`, `{{eventDate}}`, `{{eventLocation}}` and `{{place}}`, in that order, each on the text the previous one produced. What they do is stated by `Sms.PlainMessageUnchanged`, `Sms.NameSubstituted`, `Sms.AmountNeverSubstituted`, `Sms.SubstitutedNameIsRescanned` and `Sms.DollarInNameIsExpanded`. |
| Sms.PlainMessageUnchanged | src/app/app.component.ts:1594-1599 | A message without `{{` is sent to every participant exactly as written. |
| Sms.NameSubstituted | src/app/app.component.ts:1594-1599 | In a message whose other text holds no `{`, `{{name}}` becomes the participant's name and the surrounding text is kept, when the name holds no `$` and no `{{`. |
| Sms.AmountNeverSubstituted | src/app/app.component.ts:1594-1599 | `{{amount}}` is sent literally, although the template text at line 680 names it beside the substituted placeholders. |
| Sms.SubstitutedNameIsRescanned | src/app/app.component.ts:1594-1599 | Substituted text is rescanned by the later steps: a participant named `{{place}}` receives their place. |
| Sms.DollarInNameIsExpanded | src/app/app.component.ts:1595 | A name `$&` is expanded by `replace` to the matched placeholder, so the message reads `{{name}}`. |

## Left out

- Firebase: Firestore writes, `enableIndexedDbPersistence`, Auth and `onAuthStateChanged` are calls into code outside this component. The flush is modelled as succeeding, as the mock does.
- rxjs: the `fromEvent` streams, the 300 ms debounce and the 30-second `timer` are not modelled. Their outputs are inputs to the transitions (`Network`, `Tick`).
- `setTimeout` delays: the one-second mock wait inside `syncPendingChanges` and the 100 ms wait between messages are not modelled. Each flush is one atomic step, so no interleaving with another transition during the wait is modelled. In the source, a write queued during that wait is discarded by `this.pendingWrites = []` (`src/app/app.component.ts:1967`) without being written. `SyncTrace.StepKeepsOrFlushes` (no step loses a write) holds only for the atomic flush of this model.
- `alert`, `confirm`, `console` output, DOM access, the reCAPTCHA container and file downloads are presentation or I/O. `alert` outcomes appear as error values.
- One clock reading per action. The source calls `Date.now()` or `new Date()` separately for `createdAt` (`src/app/app.component.ts:1371`), for each `generateLocalId` (1373, 1378, 1420), for the queue timestamp (1940), and for `lastSync` after the one-second wait (1971). The model passes one `now` to the whole action. So the equalities of creation time, queue timestamp and id time, and of `lastSync` with the step's time, are imposed by the model rather than guaranteed by the source.
- The random suffixes of `generateLocalId` and the `Date.now()` reading are the `Clock` parameter of the create paths. `generateOTP` (a random six-digit code that nothing compares against) is not modelled.
- `sendSMS` is a mock that always reports success, so the success counter of `sendBulkSMS` always ends at the number of recipients. Neither is modelled: the model stops at the recipient list and the personalised text.
- The form resets after a successful create, `loadDashboardStats`, `logout`, the mock data loaders, `createSmsTemplate`, the admin screens, report and CSV builders, and `getProgressPercentage` (floating point with `toFixed`) are outside the sync and form core.
- Local ids: `Date.now()` readings are whole non-negative milliseconds below 10^21, where JavaScript's decimal form never switches to exponent notation. The model's clock is a natural number printed in plain decimal.
- App.AddContribution: amounts are integers. The source converts the form's text with `Number()` into a floating-point value. That conversion, and sums of fractional amounts, are not modelled.
- App.RemainingAfterMore: integer arithmetic stands in for JavaScript floating-point subtraction, as for the totals.
- Sync.SyncPendingChanges: the status write that sets `syncing` before the wait is overwritten by the status written after it. Only the final state is modelled, so the intermediate `syncing = true` is never observed.

=== FILE: app.dfy ===
/** The part of `AppComponent`'s state the create paths touch: the sync state,
    the signed-in user's uid and the local lists. Covers the three create
    paths (their form guards, their online and offline branches), the
    collected and remaining totals, and `resetAppState`. */
module App {
  import opened Common
  import opened Records
  import opened Sync
  import SyncTrace

  datatype AppState = AppState(
    sync: SyncState,
    uid: Option<string>,
    events: seq<Event>,
    participants: seq<Participant>,
    contributions: seq<Contribution>,
    smsTemplates: seq<SmsTemplate>,
    selectedEvent: Option<Event>)

  /** Readings a create action takes from its environment: the clock
      (`Date.now()` and `new Date()` read once), the random suffix of the
      record's `_localId`, and the random suffix of the `id` assigned online. */
  datatype Clock = Clock(now: nat, localSuffix: string, idSuffix: string)

  /** Why a form submission is refused before anything is written. */
  datatype FormError = MissingFields | NoEventSelected

  datatype EventForm = EventForm(name: string, kind: string, date: string, location: string, targetAmount: int)
  datatype ParticipantForm = ParticipantForm(name: string, phone: string, email: string, place: string)
  datatype ContributionForm = ContributionForm(
    participantId: string, amount: int, paymentMethod: PaymentMethod, notes: string)

  /** `xs2` is `xs` with exactly one element added at the end. */
  predicate AppendedOne<T(==)>(xs: seq<T>, xs2: seq<T>) {
    |xs2| == |xs| + 1 && xs2[..|xs|] == xs
  }

  /** Nothing but the sync state and the event list differs. */
  predicate ListsExceptEventsUnchanged(a: AppState, b: AppState) {
    b.uid == a.uid && b.participants == a.participants && b.contributions == a.contributions
    && b.smsTemplates == a.smsTemplates && b.selectedEvent == a.selectedEvent
  }

  predicate ListsExceptParticipantsUnchanged(a: AppState, b: AppState) {
    b.uid == a.uid && b.events == a.events && b.contributions == a.contributions
    && b.smsTemplates == a.smsTemplates && b.selectedEvent == a.selectedEvent
  }

  predicate ListsExceptContributionsUnchanged(a: AppState, b: AppState) {
    b.uid == a.uid && b.events == a.events && b.participants == a.participants
    && b.smsTemplates == a.smsTemplates && b.selectedEvent == a.selectedEvent
  }

  /** The offline branch's effect on the sync state: exactly one write for
      `collection`, queued at the tail, nothing else in the queue touched,
      the status still offline and not syncing, and `lastSync` kept. */
  predicate QueuedOne(a: SyncState, b: SyncState, collection: string, now: int) {
    && AppendedOne(a.pendingWrites, b.pendingWrites)
    && b.pendingWrites[|a.pendingWrites|].collection == collection
    && b.pendingWrites[|a.pendingWrites|].timestamp == now
    && b.pendingWrites[|a.pendingWrites|].retryCount == 0
    && b.status.pendingChanges == |b.pendingWrites|
    && b.status.online == a.status.online && b.manualOffline == a.manualOffline
    && !b.status.syncing && b.status.lastSync == a.status.lastSync
  }

  /** The event's fields as `addEvent` fills them: the form's fields, the
      owner's uid (or `mock-user`), the creation time and the `_localId`. */
  predicate EventFromForm(d: EventData, form: EventForm, uid: Option<string>, clock: Clock) {
    && d.name == form.name && d.kind == form.kind && d.date == form.date
    && d.location == form.location && d.targetAmount == form.targetAmount
    && d.createdAt == clock.now && d.userId == UserIdOf(uid)
    && d.localId == Some(LocalId(clock.now, clock.localSuffix))
  }

  /** The participant's fields as `addParticipantToEvent` fills them. */
  predicate ParticipantFromForm(d: ParticipantData, eventId: string, form: ParticipantForm,
                                uid: Option<string>, clock: Clock) {
    && d.eventId == eventId && d.name == form.name && d.phone == form.phone
    && d.email == form.email && d.place == form.place && d.userId == UserIdOf(uid)
    && d.localId == Some(LocalId(clock.now, clock.localSuffix))
  }

  /** The contribution's fields as `addContribution` and
      `addContributionToEvent` fill them: the form's fields, the event, the
      time, the owner, the `_localId`, and the name, phone and place of the
      first listed participant with the form's participant id (absent when
      there is none). */
  predicate ContributionFromForm(d: ContributionData, eventId: string, form: ContributionForm,
                                 ps: seq<Participant>, uid: Option<string>, clock: Clock) {
    var found := FindParticipant(ps, form.participantId);
    && d.eventId == eventId && d.participantId == form.participantId
    && d.amount == form.amount && d.paymentMethod == form.paymentMethod
    && d.notes == form.notes && d.date == clock.now && d.userId == UserIdOf(uid)
    && d.localId == Some(LocalId(clock.now, clock.localSuffix))
    && d.participantName == (if found.Some? then Some(found.value.data.name) else None)
    && d.participantPhone == (if found.Some? then Some(found.value.data.phone) else None)
    && d.participantPlace == (if found.Some? then Some(found.value.data.place) else None)
  }

  /** `addEvent`: online, the event joins the local list under a fresh id,
      which is returned; offline, it is queued for `events` marked
      `_pendingSync`, and its `_localId` is returned. */
  function AddEvent(app: AppState, form: EventForm, clock: Clock): (r: (AppState, string))
    ensures ListsExceptEventsUnchanged(app, r.0)
    ensures app.sync.status.online ==>
      && r.0.sync == app.sync
      && AppendedOne(app.events, r.0.events)
      && var e := r.0.events[|app.events|];
      && e.id == r.1 && r.1 == LocalId(clock.now, clock.idSuffix)
      && EventFromForm(e.data, form, app.uid, clock)
      && !e.data.pendingSync
    ensures !app.sync.status.online ==>
      && r.0.events == app.events
      && QueuedOne(app.sync, r.0.sync, EventsCollection, clock.now)
      && var w := r.0.sync.pendingWrites[|app.sync.pendingWrites|];
      && w.data.EventPayload? && w.data.event.pendingSync
      && EventFromForm(w.data.event, form, app.uid, clock)
      && r.1 == LocalId(clock.now, clock.localSuffix)
  {
    var localId := LocalId(clock.now, clock.localSuffix);
    var data := EventData(form.name, form.kind, form.date, form.location, form.targetAmount,
                          clock.now, UserIdOf(app.uid), Some(localId), !app.sync.status.online);
    if app.sync.status.online then
      var id := LocalId(clock.now, clock.idSuffix);
      (app.(events := app.events + [Event(id, data)]), id)
    else
      (app.(sync := AddPendingWrite(app.sync, EventsCollection, EventPayload(data), clock.now)), localId)
  }

  /** `createEvent`: refused when the name or the date is empty, otherwise `addEvent`. */
  function CreateEvent(app: AppState, form: EventForm, clock: Clock): (r: Result<(AppState, string), FormError>)
    ensures r.Failure? <==> form.name == "" || form.date == ""
    ensures r.Failure? ==> r.error == MissingFields
    ensures r.Success? ==> r.value == AddEvent(app, form, clock)
  {
    if form.name == "" || form.date == "" then Failure(MissingFields)
    else Success(AddEvent(app, form, clock))
  }

  /** `addParticipantToEvent` for the given event id. */
  function AddParticipantToEvent(app: AppState, eventId: string, form: ParticipantForm, clock: Clock): (r: AppState)
    ensures ListsExceptParticipantsUnchanged(app, r)
    ensures app.sync.status.online ==>
      && r.sync == app.sync
      && AppendedOne(app.participants, r.participants)
      && var p := r.participants[|app.participants|];
      && p.id == LocalId(clock.now, clock.idSuffix)
      && ParticipantFromForm(p.data, eventId, form, app.uid, clock) && !p.data.pendingSync
    ensures !app.sync.status.online ==>
      && r.participants == app.participants
      && QueuedOne(app.sync, r.sync, ParticipantsCollection, clock.now)
      && var w := r.sync.pendingWrites[|app.sync.pendingWrites|];
      && w.data.ParticipantPayload? && w.data.participant.pendingSync
      && ParticipantFromForm(w.data.participant, eventId, form, app.uid, clock)
  {
    var data := ParticipantData(eventId, form.name, form.phone, form.email, form.place,
                                UserIdOf(app.uid), Some(LocalId(clock.now, clock.localSuffix)),
                                !app.sync.status.online);
    if app.sync.status.online then
      app.(participants := app.participants + [Participant(LocalId(clock.now, clock.idSuffix), data)])
    else
      app.(sync := AddPendingWrite(app.sync, ParticipantsCollection, ParticipantPayload(data), clock.now))
  }

  /** `addParticipant`: refused without a selected event, or when the name or
      phone is empty; otherwise adds the participant to the selected event. */
  function AddParticipant(app: AppState, form: ParticipantForm, clock: Clock): (r: Result<AppState, FormError>)
    ensures app.selectedEvent.None? <==> r == Failure(NoEventSelected)
    ensures app.selectedEvent.Some? && (form.name == "" || form.phone == "") <==> r == Failure(MissingFields)
    ensures r.Success? ==> r.value == AddParticipantToEvent(app, app.selectedEvent.value.id, form, clock)
  {
    if app.selectedEvent.None? then Failure(NoEventSelected)
    else if form.name == "" || form.phone == "" then Failure(MissingFields)
    else Success(AddParticipantToEvent(app, app.selectedEvent.value.id, form, clock))
  }

  /** `participants.find(p => p.id === id)`: the first listed participant with that id. */
  function FindParticipant(ps: seq<Participant>, id: string): (r: Option<Participant>)
    ensures r.None? <==> forall k :: 0 <= k < |ps| ==> ps[k].id != id
    ensures r.Some? ==> exists k :: 0 <= k < |ps| && ps[k] == r.value && r.value.id == id
                                  && forall j :: 0 <= j < k ==> ps[j].id != id
  {
    if |ps| == 0 then None
    else if ps[0].id == id then Some(ps[0])
    else
      var r := FindParticipant(ps[1..], id);
      assert forall k :: 1 <= k < |ps| ==> ps[k] == ps[1..][k - 1];
      r
  }

  /** A participant added online under an id no listed participant has is the
      one a later contribution naming that id finds, so the contribution
      copies its name, phone and place. */
  lemma AddedParticipantIsFound(app: AppState, eventId: string, form: ParticipantForm, clock: Clock)
    requires app.sync.status.online
    requires forall k :: 0 <= k < |app.participants| ==> app.participants[k].id != LocalId(clock.now, clock.idSuffix)
    ensures var r := AddParticipantToEvent(app, eventId, form, clock);
      FindParticipant(r.participants, LocalId(clock.now, clock.idSuffix))
      == Some(r.participants[|app.participants|])
  {
  }

  /** `addContributionToEvent` for the given event id, copying the name,
      phone and place of the participant the form names when one is listed. */
  function AddContributionToEvent(app: AppState, eventId: string, form: ContributionForm, clock: Clock): (r: AppState)
    ensures ListsExceptContributionsUnchanged(app, r)
    ensures app.sync.status.online ==>
      && r.sync == app.sync
      && AppendedOne(app.contributions, r.contributions)
      && var c := r.contributions[|app.contributions|];
      && c.id == LocalId(clock.now, clock.idSuffix)
      && ContributionFromForm(c.data, eventId, form, app.participants, app.uid, clock)
      && !c.data.pendingSync
    ensures !app.sync.status.online ==>
      && r.contributions == app.contributions
      && QueuedOne(app.sync, r.sync, ContributionsCollection, clock.now)
      && var w := r.sync.pendingWrites[|app.sync.pendingWrites|];
      && w.data.ContributionPayload? && w.data.contribution.pendingSync
      && ContributionFromForm(w.data.contribution, eventId, form, app.participants, app.uid, clock)
  {
    var found := FindParticipant(app.participants, form.participantId);
    var data := ContributionData(
      eventId, form.participantId,
      if found.Some? then Some(found.value.data.name) else None,
      if found.Some? then Some(found.value.data.phone) else None,
      if found.Some? then Some(found.value.data.place) else None,
      form.amount, form.paymentMethod, clock.now, form.notes,
      UserIdOf(app.uid), Some(LocalId(clock.now, clock.localSuffix)), !app.sync.status.online);
    if app.sync.status.online then
      app.(contributions := app.contributions + [Contribution(LocalId(clock.now, clock.idSuffix), data)])
    else
      app.(sync := AddPendingWrite(app.sync, ContributionsCollection, ContributionPayload(data), clock.now))
  }

  /** `addContribution`: refused without a selected event, or when the
      participant id is empty or the amount is zero (both falsy); a negative
      amount passes. */
  function AddContribution(app: AppState, form: ContributionForm, clock: Clock): (r: Result<AppState, FormError>)
    ensures app.selectedEvent.None? <==> r == Failure(NoEventSelected)
    ensures app.selectedEvent.Some? && (form.participantId == "" || form.amount == 0)
            <==> r == Failure(MissingFields)
    ensures r.Success? ==> r.value == AddContributionToEvent(app, app.selectedEvent.value.id, form, clock)
  {
    if app.selectedEvent.None? then Failure(NoEventSelected)
    else if form.participantId == "" || form.amount == 0 then Failure(MissingFields)
    else Success(AddContributionToEvent(app, app.selectedEvent.value.id, form, clock))
  }

  /** `getTotalCollected`: the sum of the listed contributions' amounts. */
  function TotalCollected(cs: seq<Contribution>): int {
    if |cs| == 0 then 0 else TotalCollected(cs[..|cs| - 1]) + cs[|cs| - 1].data.amount
  }

  /** The total of a concatenation is the sum of the totals. */
  lemma {:induction false} TotalCollectedConcat(a: seq<Contribution>, b: seq<Contribution>)
    ensures TotalCollected(a + b) == TotalCollected(a) + TotalCollected(b)
    decreases |b|
  {
    if |b| > 0 {
      assert (a + b)[..|a + b| - 1] == a + b[..|b| - 1];
      TotalCollectedConcat(a, b[..|b| - 1]);
    } else {
      assert a + b == a;
    }
  }

  /** The total does not depend on the order of the contributions. */
  lemma {:induction false} TotalCollectedSwap(a: seq<Contribution>, b: seq<Contribution>)
    ensures TotalCollected(a + b) == TotalCollected(b + a)
  {
    TotalCollectedConcat(a, b);
    TotalCollectedConcat(b, a);
  }

  /** `getRemainingAmount`: 0 without a selected event or with a zero target,
      otherwise the target less the total (negative once the target is exceeded). */
  function RemainingAmount(selected: Option<Event>, cs: seq<Contribution>): int {
    if selected.None? || selected.value.data.targetAmount == 0 then 0
    else selected.value.data.targetAmount - TotalCollected(cs)
  }

  /** More contributions lower the remaining amount by their total when the
      event has a target, and leave it at 0 otherwise; with no contributions
      at all, the remaining amount is the whole target. */
  lemma {:induction false} RemainingAfterMore(selected: Option<Event>, cs: seq<Contribution>, ds: seq<Contribution>)
    ensures selected.Some? && selected.value.data.targetAmount != 0 ==>
      RemainingAmount(selected, cs + ds) == RemainingAmount(selected, cs) - TotalCollected(ds)
    ensures selected.None? || selected.value.data.targetAmount == 0 ==>
      RemainingAmount(selected, cs + ds) == 0
    ensures RemainingAmount(selected, []) == if selected.Some? then selected.value.data.targetAmount else 0
  {
    TotalCollectedConcat(cs, ds);
  }

  /** A contribution recorded online raises the total by its amount and
      lowers the remaining amount by the same; one recorded offline changes
      neither, and nothing in the model ever adds the queued write to the list. */
  lemma ContributionMovesTotals(app: AppState, form: ContributionForm, clock: Clock)
    requires AddContribution(app, form, clock).Success?
    ensures var r := AddContribution(app, form, clock).value;
      && (app.sync.status.online ==>
            && TotalCollected(r.contributions) == TotalCollected(app.contributions) + form.amount
            && (app.selectedEvent.value.data.targetAmount != 0 ==>
                  RemainingAmount(r.selectedEvent, r.contributions)
                  == RemainingAmount(app.selectedEvent, app.contributions) - form.amount))
      && (!app.sync.status.online ==>
            TotalCollected(r.contributions) == TotalCollected(app.contributions))
  {
    var r := AddContribution(app, form, clock).value;
    if app.sync.status.online {
      var c := r.contributions[|app.contributions|];
      assert r.contributions == app.contributions + [c];
      TotalCollectedConcat(app.contributions, [c]);
      assert TotalCollected([c]) == c.data.amount;
    }
  }

  /** The two ids a record created online carries (`id` and `_localId`)
      differ unless the two random suffixes happen to coincide. */
  lemma OnlineIdsDiffer(app: AppState, form: EventForm, clock: Clock)
    requires app.sync.status.online && clock.localSuffix != clock.idSuffix
    ensures var e := AddEvent(app, form, clock).0.events[|app.events|];
      e.data.localId.Some? && e.id != e.data.localId.value
  {
    LocalIdInjective(clock.now, clock.localSuffix, clock.now, clock.idSuffix);
  }

  /** `resetAppState`: the lists, the selected event and the queue are
      cleared; the sync status and the manual-offline flag are left alone. */
  function ResetAppState(app: AppState): (r: AppState)
    ensures r.events == [] && r.participants == [] && r.contributions == []
    ensures r.smsTemplates == [] && r.selectedEvent.None?
    ensures r.sync.pendingWrites == []
    ensures r.sync.status == app.sync.status && r.sync.manualOffline == app.sync.manualOffline
    ensures r.uid == app.uid
  {
    AppState(app.sync.(pendingWrites := []), app.uid, [], [], [], [], None)
  }

  /** Resetting with writes queued leaves a pending count that no longer
      agrees with the (now empty) queue. */
  lemma ResetBreaksCount(app: AppState)
    requires CountAgrees(app.sync) && |app.sync.pendingWrites| > 0
    ensures !CountAgrees(ResetAppState(app).sync)
    ensures ResetAppState(app).sync.status.pendingChanges > 0
  {
  }

  /** With the queue empty, every input but an enqueue keeps the stale count:
      after a reset the count stays wrong until the next write is queued. */
  lemma StaleCountPersists(s: SyncState, inputs: seq<SyncTrace.Input>)
    requires s.pendingWrites == []
    requires forall k :: 0 <= k < |inputs| ==> !inputs[k].Enqueue?
    ensures SyncTrace.Run(s, inputs).status.pendingChanges == s.status.pendingChanges
    ensures SyncTrace.Run(s, inputs).pendingWrites == []
    decreases |inputs|
  {
    if |inputs| > 0 {
      StaleCountPersists(SyncTrace.Step(s, inputs[0]), inputs[1..]);
    }
  }
}

=== FILE: auth.dfy ===
/** The sign-in helpers of `AppComponent`: the e-mail and phone validators,
    the OTP request and verification checks, and the 60-second resend
    countdown driven one tick per second. */
module Auth {
  import opened Common
  import opened Text
  import Seqs

  // ---------------------------------------------------------------- validators

  /** A character `[^\s@]` accepts. */
  predicate FieldChar(c: char) {
    !IsJsWhitespace(c) && c != '@'
  }

  /** A non-empty run of `[^\s@]` characters: `[^\s@]+`. */
  predicate IsField(t: string) {
    |t| > 0 && forall k :: 0 <= k < |t| ==> FieldChar(t[k])
  }

  /** `isEmail`: the whole string matches `^[^\s@]+@[^\s@]+\.[^\s@]+$`, that is,
      it splits as field, `@`, field, `.`, field for some choice of the two
      separators. */
  predicate IsEmail(s: string) {
    exists i, j :: 0 < i < j < |s| - 1 && s[i] == '@' && s[j] == '.'
                   && IsField(s[..i]) && IsField(s[i + 1..j]) && IsField(s[j + 1..])
  }

  /** A single left-to-right reading of the same check: the part before the
      first `@` is a field, and the rest has no white space or `@` and a `.`
      that is neither its first nor its last character. */
  predicate IsEmailScan(s: string) {
    match Seqs.IndexOf(s, '@')
    case None => false
    case Some(i) =>
      var d := s[i + 1..];
      && IsField(s[..i])
      && (forall k :: 0 <= k < |d| ==> FieldChar(d[k]))
      && |d| >= 3 && '.' in d[1..|d| - 1]
  }

  /** The pattern and the scan accept the same strings. */
  lemma EmailScanAgrees(s: string)
    ensures IsEmail(s) <==> IsEmailScan(s)
  {
    if IsEmail(s) {
      EmailImpliesScan(s);
    }
    if IsEmailScan(s) {
      ScanImpliesEmail(s);
    }
  }

  lemma EmailImpliesScan(s: string)
    requires IsEmail(s)
    ensures IsEmailScan(s)
  {
    var i, j :| 0 < i < j < |s| - 1 && s[i] == '@' && s[j] == '.'
                && IsField(s[..i]) && IsField(s[i + 1..j]) && IsField(s[j + 1..]);
    SplitIsScan(s, i, j);
  }

  lemma SplitIsScan(s: string, i: nat, j: nat)
    requires 0 < i < j < |s| - 1 && s[i] == '@' && s[j] == '.'
    requires IsField(s[..i]) && IsField(s[i + 1..j]) && IsField(s[j + 1..])
    ensures IsEmailScan(s)
  {
    FirstAt(s, i);
    var d := s[i + 1..];
    forall k | 0 <= k < |d|
      ensures FieldChar(d[k])
    {
      if k < j - i - 1 {
        assert d[k] == s[i + 1..j][k];
      } else if k > j - i - 1 {
        assert d[k] == s[j + 1..][k - (j - i)];
      }
    }
    assert d[1..|d| - 1][j - i - 2] == '.';
  }

  /** An `@` preceded by a field is the first `@`. */
  lemma FirstAt(s: string, i: nat)
    requires i < |s| && s[i] == '@' && IsField(s[..i])
    ensures Seqs.IndexOf(s, '@') == Some(i)
  {
    assert s[..i + 1][i] == '@';
  }

  lemma ScanImpliesEmail(s: string)
    requires IsEmailScan(s)
    ensures IsEmail(s)
  {
    var i := Seqs.IndexOf(s, '@').value;
    var d := s[i + 1..];
    var m :| 0 <= m < |d| - 2 && d[1..|d| - 1][m] == '.';
    var j := i + 2 + m;
    assert s[j] == '.';
    assert s[i + 1..j] == d[1 - 1..m + 1];
    assert s[j + 1..] == d[m + 2..|d|];
    FieldSlice(d, 0, m + 1);
    FieldSlice(d, m + 2, |d|);
  }

  /** A non-empty slice of a string of field characters is a field. */
  lemma FieldSlice(d: string, lo: nat, hi: nat)
    requires forall k :: 0 <= k < |d| ==> FieldChar(d[k])
    requires lo < hi <= |d|
    ensures IsField(d[lo..hi])
  {
    forall k | 0 <= k < hi - lo
      ensures FieldChar(d[lo..hi][k])
    {
      assert d[lo..hi][k] == d[lo + k];
    }
  }

  /** `s.replace(/\D/g, '')`: the decimal digits of `s`, in order. */
  function Digits(s: string): (r: string)
    ensures AllDigits(r) && |r| <= |s|
  {
    if |s| == 0 then ""
    else if IsDigit(s[0]) then [s[0]] + Digits(s[1..])
    else Digits(s[1..])
  }

  /** Stripping non-digits distributes over concatenation. */
  lemma {:induction false} DigitsConcat(a: string, b: string)
    ensures Digits(a + b) == Digits(a) + Digits(b)
    decreases |a|
  {
    if |a| > 0 {
      assert (a + b)[1..] == a[1..] + b;
      DigitsConcat(a[1..], b);
    } else {
      assert a + b == b;
    }
  }

  /** A string of digits is left as it is. */
  lemma {:induction false} DigitsOfDigits(s: string)
    requires AllDigits(s)
    ensures Digits(s) == s
    decreases |s|
  {
    if |s| > 0 {
      DigitsOfDigits(s[1..]);
      assert s == [s[0]] + s[1..];
    }
  }

  /** The phone pattern `^[\+]?[1-9][\d]{0,15}$`. */
  predicate PhonePattern(t: string) {
    var u := if |t| > 0 && t[0] == '+' then t[1..] else t;
    1 <= |u| <= 16 && '1' <= u[0] <= '9' && AllDigits(u[1..])
  }

  /** `isPhoneNumber`: the phone pattern matched against the digits of `s` alone. */
  predicate IsPhoneNumber(s: string) {
    PhonePattern(Digits(s))
  }

  /** What `isPhoneNumber` accepts: the digits of `s`, taken in order, are
      1 to 16 digits not starting with '0'. The optional `+` of the pattern
      never takes part, since only digits remain when it is matched. */
  lemma PhoneCharacterization(s: string)
    ensures IsPhoneNumber(s) <==> 1 <= |Digits(s)| <= 16 && Digits(s)[0] != '0'
    ensures |Digits(s)| > 0 ==> Digits(s)[0] != '+'
  {
  }

  /** Formatting is ignored: dropping any non-digit character anywhere
      leaves the verdict unchanged (so `+`, spaces and dashes make no difference). */
  lemma PhoneIgnoresNonDigits(a: string, c: char, b: string)
    requires !IsDigit(c)
    ensures IsPhoneNumber(a + [c] + b) <==> IsPhoneNumber(a + b)
  {
    DigitsConcat(a + [c], b);
    DigitsConcat(a, [c]);
    DigitsConcat(a, b);
  }

  // ---------------------------------------------------------------- OTP flow

  datatype AuthStep = InputStep | OtpStep
  datatype OtpChannel = ByEmail | BySms

  /** `otpCountdown`, `canResendOTP`, and whether the one-second interval is still set. */
  datatype OtpTimer = OtpTimer(countdown: int, canResend: bool, running: bool)

  /** The sign-in form: `authStep`, the `authData` fields the checks read, and the countdown. */
  datatype AuthState = AuthState(
    step: AuthStep, phoneOrEmail: string, otp: string, displayName: string,
    otpMethod: OtpChannel, timer: OtpTimer)

  datatype RequestOutcome = BlankContact | OtpSent(via: OtpChannel) | InvalidContact

  datatype User = User(uid: string, email: Option<string>, phone: Option<string>, displayName: string, createdAt: int)

  datatype VerifyOutcome = BadOtpFormat | OtpRejected | LoggedIn(user: User)

  /** `startOTPTimer`. */
  function StartTimer(): OtpTimer {
    OtpTimer(60, false, true)
  }

  /** One firing of the interval: decrement, and at zero allow a resend and
      clear the interval. A cleared interval no longer fires. */
  function TimerTick(t: OtpTimer): (r: OtpTimer)
    ensures !t.running ==> r == t
    ensures t.running ==> r.countdown == t.countdown - 1
    ensures t.running ==> (r.running <==> t.countdown - 1 > 0)
    ensures t.running && t.countdown - 1 <= 0 ==> r.canResend
    ensures t.running && t.countdown > 1 ==> r.canResend == t.canResend
  {
    if !t.running then t
    else
      var c := t.countdown - 1;
      if c <= 0 then OtpTimer(c, true, false) else t.(countdown := c)
  }

  function TimerTicks(t: OtpTimer, k: nat): OtpTimer {
    if k == 0 then t else TimerTick(TimerTicks(t, k - 1))
  }

  /** After `k` seconds the countdown shows `60 - k`; resending becomes
      possible exactly at the sixtieth second, when the interval stops. */
  lemma {:induction false} CountdownFromStart(k: nat)
    ensures TimerTicks(StartTimer(), k)
      == if k < 60 then OtpTimer(60 - k, false, true) else OtpTimer(0, true, false)
  {
    if k > 0 {
      CountdownFromStart(k - 1);
    }
  }

  /** `resetAuthData`. */
  function ResetAuthData(a: AuthState): (r: AuthState)
    ensures r.step == InputStep && r.otp == "" && r.phoneOrEmail == ""
    ensures r.displayName == "" && r.otpMethod == BySms
    ensures !r.timer.running && !r.timer.canResend && r.timer.countdown == 0
  {
    AuthState(InputStep, "", "", "", BySms, OtpTimer(0, false, false))
  }

  /** `backToInput`: back to the contact field with the OTP cleared; the
      interval is cleared but the countdown and resend flag keep their values. */
  function BackToInput(a: AuthState): (r: AuthState)
    ensures r.step == InputStep && r.otp == "" && !r.timer.running
    ensures r.timer.countdown == a.timer.countdown && r.timer.canResend == a.timer.canResend
    ensures r.phoneOrEmail == a.phoneOrEmail
    ensures r.displayName == a.displayName && r.otpMethod == a.otpMethod
  {
    a.(step := InputStep, otp := "", timer := a.timer.(running := false))
  }

  /** `requestOTP` with `sendOTP` inlined. A blank contact is refused. The
      OTP method shown is e-mail whenever the input contains `@`, while the
      send itself goes by e-mail only for a valid address and otherwise by
      SMS for a valid phone number; anything else is refused. A send moves
      to the OTP step and starts the countdown. */
  function RequestOtp(a: AuthState): (r: (AuthState, RequestOutcome))
    ensures r.1 == BlankContact <==> IsBlank(a.phoneOrEmail)
    ensures r.1.OtpSent? <==>
      !IsBlank(a.phoneOrEmail) && (IsEmail(a.phoneOrEmail) || IsPhoneNumber(a.phoneOrEmail))
    ensures r.1.OtpSent? ==> (r.1.via == ByEmail <==> IsEmail(a.phoneOrEmail))
    ensures r.1.OtpSent? ==> r.0.step == OtpStep && r.0.timer == StartTimer()
    ensures !r.1.OtpSent? ==> r.0.step == a.step && r.0.timer == a.timer
    ensures r.1 != BlankContact ==> (r.0.otpMethod == ByEmail <==> '@' in a.phoneOrEmail)
    ensures r.0.phoneOrEmail == a.phoneOrEmail && r.0.otp == a.otp && r.0.displayName == a.displayName
    ensures r.1 == BlankContact ==> r.0 == a
  {
    var contact := a.phoneOrEmail;
    if Trim(contact) == "" then (a, BlankContact)
    else
      var a1 := a.(otpMethod := if '@' in contact then ByEmail else BySms);
      if IsEmail(contact) then (a1.(step := OtpStep, timer := StartTimer()), OtpSent(ByEmail))
      else if IsPhoneNumber(contact) then (a1.(step := OtpStep, timer := StartTimer()), OtpSent(BySms))
      else (a1, InvalidContact)
  }

  /** A contact with an `@` that is not an e-mail address can still be sent
      an OTP by SMS, while the method shown says e-mail. */
  lemma MethodAndChannelCanDisagree(a: AuthState)
    requires a.phoneOrEmail == "1@2"
    ensures RequestOtp(a).1 == OtpSent(BySms) && RequestOtp(a).0.otpMethod == ByEmail
  {
    var s := a.phoneOrEmail;
    assert !IsEmail(s);
    assert Digits(s) == "12" by {
      assert s[1..] == "@2";
      assert "@2"[1..] == "2";
    }
    assert IsPhoneNumber(s);
    assert s[1] == '@';
    assert !IsBlank(s) by {
      assert !IsJsWhitespace(s[0]);
    }
  }

  /** `resendOTP`: only once the countdown has allowed it. */
  function ResendOtp(a: AuthState): (r: (AuthState, Option<RequestOutcome>))
    ensures !a.timer.canResend ==> r == (a, None)
    ensures a.timer.canResend ==> r == (RequestOtp(a).0, Some(RequestOtp(a).1))
  {
    if a.timer.canResend then var (a1, o) := RequestOtp(a); (a1, Some(o)) else (a, None)
  }

  /** `verifyOTP` with `verifyOTPCode` inlined. The entry is refused as
      malformed when blank or not six UTF-16 code units long; a well-formed
      entry signs in exactly when it is `123456`, creating the mock user and
      resetting the form. */
  function VerifyOtp(a: AuthState, now: nat): (r: (AuthState, VerifyOutcome))
    ensures r.1 == BadOtpFormat <==> IsBlank(a.otp) || Utf16Length(a.otp) != 6
    ensures r.1.LoggedIn? ==> r.0 == ResetAuthData(a)
    ensures !r.1.LoggedIn? ==> r.0 == a
  {
    if Trim(a.otp) == "" || Utf16Length(a.otp) != 6 then (a, BadOtpFormat)
    else if a.otp == "123456" then
      var name := Trim(a.displayName);
      var contact := a.phoneOrEmail;
      var user := User(
        "mock-user-" + Decimal(now),
        if IsEmail(contact) then Some(contact) else None,
        if IsPhoneNumber(contact) then Some(contact) else None,
        if name == "" then "User" else name,
        now);
      (ResetAuthData(a), LoggedIn(user))
    else (a, OtpRejected)
  }

  /** The only code ever accepted is `123456`; the length check in front of
      it refuses nothing that would have been accepted. */
  lemma OtpAcceptedIff(a: AuthState, now: nat)
    ensures VerifyOtp(a, now).1.LoggedIn? <==> a.otp == "123456"
  {
    if a.otp == "123456" {
      assert !IsJsWhitespace(a.otp[0]);
      assert Utf16Length(a.otp) == 6;
    }
  }

  /** The mock user's display name is the trimmed name entered, or `User`. */
  lemma LoggedInUserName(a: AuthState, now: nat)
    requires a.otp == "123456"
    ensures VerifyOtp(a, now).1.LoggedIn?
    ensures var u := VerifyOtp(a, now).1.user;
      && (IsBlank(a.displayName) ==> u.displayName == "User")
      && (!IsBlank(a.displayName) ==> u.displayName == Trim(a.displayName))
  {
    OtpAcceptedIff(a, now);
  }
}

=== FILE: common.dfy ===
/** Small failure-carrying datatypes shared by every module of the model. */
module Common {

  /** A value that may be absent: TypeScript's optional field or `null`. */
  datatype Option<+T> = None | Some(value: T)

  /** The outcome of a user action that either completes or is refused with a reason. */
  datatype Result<+T, +E> = Success(value: T) | Failure(error: E)
}

=== FILE: records.dfy ===
/** The component's records (`Event`, `Participant`, `Contribution`,
    `SMSTemplate`), the pending-write entry, and the `local_<time>_<suffix>`
    identifier format.

    A record that sits in one of the component's local lists always carries an
    `id` (only the online create paths and the hard-coded loaders put records
    there, and both assign one), while a record waiting in the pending-write
    queue never does. The model therefore splits each record into its data
    (`EventData`, ...) and a listed form that pairs the data with its id. */
module Records {
  import opened Common
  import opened Text
  import Seqs

  datatype PaymentMethod = Cash | Digital | Bank

  /** An event's fields other than its id. `localId` and `pendingSync` are the
      optional `_localId` / `_pendingSync` markers; an absent marker reads as false. */
  datatype EventData = EventData(
    name: string, kind: string, date: string, location: string,
    targetAmount: int, createdAt: int, userId: string,
    localId: Option<string>, pendingSync: bool)

  datatype Event = Event(id: string, data: EventData)

  datatype ParticipantData = ParticipantData(
    eventId: string, name: string, phone: string, email: string, place: string,
    userId: string, localId: Option<string>, pendingSync: bool)

  datatype Participant = Participant(id: string, data: ParticipantData)

  /** `participantName` and its siblings are copied from the participant the
      form names, and are absent when no listed participant has that id. */
  datatype ContributionData = ContributionData(
    eventId: string, participantId: string,
    participantName: Option<string>, participantPhone: Option<string>,
    participantPlace: Option<string>,
    amount: int, paymentMethod: PaymentMethod, date: int, notes: string,
    userId: string, localId: Option<string>, pendingSync: bool)

  datatype Contribution = Contribution(id: string, data: ContributionData)

  datatype SmsTemplate = SmsTemplate(
    id: string, name: string, message: string, eventId: Option<string>, userId: string)

  /** The `data` of a pending write: one of the three record kinds. */
  datatype Payload =
    | EventPayload(event: EventData)
    | ParticipantPayload(participant: ParticipantData)
    | ContributionPayload(contribution: ContributionData)

  /** One entry of the pending-write queue. */
  datatype PendingWrite = PendingWrite(
    collection: string, data: Payload, timestamp: int, retryCount: nat)

  /** The collection names the create paths queue writes for. */
  const EventsCollection: string := "events"
  const ParticipantsCollection: string := "participants"
  const ContributionsCollection: string := "contributions"

  /** `this.user?.uid || 'mock-user'`: the signed-in user's uid, unless there
      is no user or the uid is the (falsy) empty string. */
  function UserIdOf(uid: Option<string>): (r: string)
    ensures |r| > 0
    ensures uid.Some? && uid.value != "" ==> r == uid.value
    ensures uid.None? || uid.value == "" ==> r == "mock-user"
  {
    match uid
    case Some(u) => if u != "" then u else "mock-user"
    case None => "mock-user"
  }

  /** `'local_' + Date.now() + '_' + suffix`, with the clock reading and the
      random suffix supplied by the caller. */
  function LocalId(time: nat, suffix: string): (r: string)
    ensures ParseLocalId(r) == Some((time, suffix))
  {
    LocalIdParses(time, suffix);
    "local_" + Decimal(time) + "_" + suffix
  }

  /** Splits a string of the local-id shape back into its time and suffix:
      the time is the canonical decimal between the `local_` prefix and the
      next underscore, the suffix is everything after that underscore. */
  function ParseLocalId(id: string): (r: Option<(nat, string)>)
    ensures r.Some? ==> |id| > 7 && id[..6] == "local_"
  {
    if |id| < 6 || id[..6] != "local_" then None
    else
      var rest := id[6..];
      match Seqs.IndexOf(rest, '_')
      case None => None
      case Some(k) =>
        var digits := rest[..k];
        if IsCanonicalDecimal(digits) then Some((DecimalValue(digits), rest[k + 1..]))
        else None
  }

  /** The id text that `LocalId` builds parses back to the time and the suffix. */
  lemma LocalIdParses(time: nat, suffix: string)
    ensures ParseLocalId("local_" + Decimal(time) + "_" + suffix) == Some((time, suffix))
  {
    var d := Decimal(time);
    var id := "local_" + Decimal(time) + "_" + suffix;
    assert id[..6] == "local_";
    var rest := id[6..];
    assert rest == d + "_" + suffix;
    assert rest[|d|] == '_';
    assert '_' !in rest[..|d|] by {
      assert rest[..|d|] == d;
      assert forall k :: 0 <= k < |d| ==> IsDigit(d[k]);
    }
    assert Seqs.IndexOf(rest, '_') == Some(|d|);
    assert rest[..|d|] == d && rest[|d| + 1..] == suffix;
    DecimalRoundTrip(time);
  }

  /** Conversely, whatever parses as a local id is exactly the id built from
      the parsed parts. */
  lemma ParsedLocalIdIsLocalId(id: string)
    requires ParseLocalId(id).Some?
    ensures LocalId(ParseLocalId(id).value.0, ParseLocalId(id).value.1) == id
  {
    var rest := id[6..];
    var k := Seqs.IndexOf(rest, '_').value;
    var digits, suffix := rest[..k], rest[k + 1..];
    assert ParseLocalId(id).value == (DecimalValue(digits), suffix);
    CanonicalDecimalRoundTrip(digits);
    assert rest == digits + "_" + suffix;
    assert id == "local_" + rest;
    assert "local_" + rest == "local_" + digits + "_" + suffix;
  }

  /** Two local ids are equal only when built from the same time and suffix. */
  lemma LocalIdInjective(t1: nat, s1: string, t2: nat, s2: string)
    ensures LocalId(t1, s1) == LocalId(t2, s2) <==> t1 == t2 && s1 == s2
  {
  }
}

=== FILE: seqs.dfy ===
/** Sequence helpers mirroring the JavaScript array methods the component uses. */
module Seqs {
  import opened Common

  /** `Array.prototype.indexOf`: the first position holding `x`, or None. */
  function IndexOf<T(==)>(s: seq<T>, x: T): (r: Option<nat>)
    ensures r.None? <==> x !in s
    ensures r.Some? ==> r.value < |s| && s[r.value] == x && x !in s[..r.value]
  {
    if |s| == 0 then None
    else if s[0] == x then Some(0)
    else
      match IndexOf(s[1..], x)
      case None => None
      case Some(i) =>
        assert s[1..][..i] == s[1..i + 1];
        assert s[..i + 1] == [s[0]] + s[1..i + 1];
        Some(i + 1)
  }

  /** No value occurs twice. */
  predicate NoDup<T(==)>(s: seq<T>) {
    forall i, j :: 0 <= i < j < |s| ==> s[i] != s[j]
  }

  /** `splice(i, 1)`: the element at `i` taken out, the others kept in order. */
  function RemoveAt<T>(s: seq<T>, i: nat): (r: seq<T>)
    requires i < |s|
    ensures |r| == |s| - 1
    ensures forall k :: 0 <= k < i ==> r[k] == s[k]
    ensures forall k :: i <= k < |r| ==> r[k] == s[k + 1]
  {
    s[..i] + s[i + 1..]
  }

  /** Removing the element at `i` changes the membership of no other value. */
  lemma RemoveAtMembership<T>(s: seq<T>, i: nat)
    requires i < |s|
    ensures forall y :: y != s[i] ==> (y in RemoveAt(s, i) <==> y in s)
  {
    var r := RemoveAt(s, i);
    forall y | y != s[i] && y in s
      ensures y in r
    {
      var k :| 0 <= k < |s| && s[k] == y;
      if k < i {
        assert r[k] == y;
      } else {
        assert r[k - 1] == y;
      }
    }
  }

  /** Removing from a sequence without duplicates keeps it so, and the removed
      value is gone. */
  lemma RemoveAtNoDup<T>(s: seq<T>, i: nat)
    requires i < |s| && NoDup(s)
    ensures NoDup(RemoveAt(s, i)) && s[i] !in RemoveAt(s, i)
  {
    var r := RemoveAt(s, i);
    forall a, b | 0 <= a < b < |r|
      ensures r[a] != r[b]
    {
      var a' := if a < i then a else a + 1;
      var b' := if b < i then b else b + 1;
      assert r[a] == s[a'] && r[b] == s[b'];
    }
    forall k | 0 <= k < |r|
      ensures r[k] != s[i]
    {
      var k' := if k < i then k else k + 1;
      assert r[k] == s[k'];
    }
  }

  /** Removing an element and adding it back at the end permutes the sequence. */
  lemma RemoveAtMultiset<T>(s: seq<T>, i: nat)
    requires i < |s|
    ensures multiset(RemoveAt(s, i) + [s[i]]) == multiset(s)
  {
    assert s == s[..i] + [s[i]] + s[i + 1..];
    assert RemoveAt(s, i) + [s[i]] == s[..i] + s[i + 1..] + [s[i]];
  }

  /** `Array.prototype.filter`: the elements satisfying `keep`, in their original order. */
  function Filter<T(!new)>(s: seq<T>, keep: T -> bool): (r: seq<T>)
    ensures |r| <= |s|
    ensures forall x :: x in r <==> x in s && keep(x)
    ensures forall i :: 0 <= i < |r| ==> keep(r[i])
    ensures forall x :: multiset(r)[x] == if keep(x) then multiset(s)[x] else 0
  {
    if |s| == 0 then []
    else
      assert s == [s[0]] + s[1..];
      if keep(s[0]) then [s[0]] + Filter(s[1..], keep)
      else Filter(s[1..], keep)
  }

  /** `t` is `s` with some elements dropped and the rest kept in order. */
  ghost predicate IsSubsequence<T>(t: seq<T>, s: seq<T>)
    decreases |s|
  {
    if |t| == 0 then true
    else if |s| == 0 then false
    else if t[0] == s[0] then IsSubsequence(t[1..], s[1..])
    else IsSubsequence(t, s[1..])
  }

  /** Filtering never reorders: its result is a subsequence of its input. */
  lemma {:induction false} FilterIsSubsequence<T(!new)>(s: seq<T>, keep: T -> bool)
    ensures IsSubsequence(Filter(s, keep), s)
    decreases |s|
  {
    if |s| > 0 {
      FilterIsSubsequence(s[1..], keep);
      if !keep(s[0]) {
        SubsequenceSkip(Filter(s[1..], keep), s);
      }
    }
  }

  /** Dropping the head of the longer sequence keeps a subsequence a subsequence. */
  lemma {:induction false} SubsequenceSkip<T>(t: seq<T>, s: seq<T>)
    requires |s| > 0 && IsSubsequence(t, s[1..])
    ensures IsSubsequence(t, s)
    decreases |s|, 0
  {
    if |t| > 0 && t[0] == s[0] {
      assert IsSubsequence(t[1..], s[1..]) by {
        SubsequenceTail(t, s[1..]);
      }
    }
  }

  /** A subsequence's tail is a subsequence too. */
  lemma {:induction false} SubsequenceTail<T>(t: seq<T>, s: seq<T>)
    requires |t| > 0 && IsSubsequence(t, s)
    ensures IsSubsequence(t[1..], s)
    decreases |s|, 1
  {
    if |s| > 0 {
      if t[0] == s[0] {
        SubsequenceSkip(t[1..], s);
      } else {
        SubsequenceTail(t, s[1..]);
        SubsequenceSkip(t[1..], s);
      }
    }
  }

  /** Filtering with two tests that agree on every element gives the same result. */
  lemma {:induction false} FilterCongruent<T(!new)>(s: seq<T>, f: T -> bool, g: T -> bool)
    requires forall k :: 0 <= k < |s| ==> f(s[k]) == g(s[k])
    ensures Filter(s, f) == Filter(s, g)
    decreases |s|
  {
    if |s| > 0 {
      assert forall k :: 1 <= k < |s| ==> s[1..][k - 1] == s[k];
      FilterCongruent(s[1..], f, g);
    }
  }
}

=== FILE: sms.dfy ===
/** The bulk-SMS helpers of `AppComponent`: the participant selection
    (toggle, select all, deselect all), the choice of recipients, and the
    `{{...}}` placeholder substitution applied to each message. Sending
    itself is a mock call and is not modelled. */
module Sms {
  import opened Common
  import opened Text
  import opened Records
  import Seqs

  // ---------------------------------------------------------------- selection

  /** `toggleParticipantSelection`: remove the first occurrence of `x` if
      there is one, otherwise append `x`. */
  function Toggle(sel: seq<string>, x: string): (r: seq<string>)
    ensures forall y :: y != x ==> (y in r <==> y in sel)
    ensures x !in sel ==> r == sel + [x]
    ensures x in sel ==> |r| == |sel| - 1
    ensures x in sel ==> r == Seqs.RemoveAt(sel, Seqs.IndexOf(sel, x).value)
    ensures Seqs.NoDup(sel) ==> Seqs.NoDup(r) && (x in r <==> x !in sel)
  {
    match Seqs.IndexOf(sel, x)
    case None =>
      assert Seqs.NoDup(sel) ==> Seqs.NoDup(sel + [x]);
      sel + [x]
    case Some(i) =>
      Seqs.RemoveAtMembership(sel, i);
      if Seqs.NoDup(sel) then Seqs.RemoveAtNoDup(sel, i); Seqs.RemoveAt(sel, i)
      else Seqs.RemoveAt(sel, i)
  }

  /** Toggling an unselected id twice restores the selection exactly;
      toggling a selected id twice (in a selection without duplicates) moves
      it to the end, so the same ids stay selected. */
  lemma ToggleTwice(sel: seq<string>, x: string)
    ensures x !in sel ==> Toggle(Toggle(sel, x), x) == sel
    ensures Seqs.NoDup(sel) ==> multiset(Toggle(Toggle(sel, x), x)) == multiset(sel)
  {
    if x !in sel {
      ToggleTwiceFresh(sel, x);
    } else if Seqs.NoDup(sel) {
      ToggleTwiceSelected(sel, x);
    }
  }

  lemma ToggleTwiceFresh(sel: seq<string>, x: string)
    requires x !in sel
    ensures Toggle(Toggle(sel, x), x) == sel
  {
    var t := sel + [x];
    assert Seqs.IndexOf(t, x) == Some(|sel|);
    assert Seqs.RemoveAt(t, |sel|) == sel;
  }

  lemma ToggleTwiceSelected(sel: seq<string>, x: string)
    requires x in sel && Seqs.NoDup(sel)
    ensures multiset(Toggle(Toggle(sel, x), x)) == multiset(sel)
  {
    var i := Seqs.IndexOf(sel, x).value;
    var t := Toggle(sel, x);
    assert x !in t;
    assert Toggle(t, x) == t + [x];
    Seqs.RemoveAtMultiset(sel, i);
  }

  /** `selectAllParticipants`: the ids of all listed participants, in order. */
  function SelectAll(ps: seq<Participant>): (r: seq<string>)
    ensures |r| == |ps| && forall k :: 0 <= k < |ps| ==> r[k] == ps[k].id
  {
    seq(|ps|, k requires 0 <= k < |ps| => ps[k].id)
  }

  /** `deselectAllParticipants`. */
  function DeselectAll(): (r: seq<string>)
    ensures |r| == 0
  {
    []
  }

  // ---------------------------------------------------------------- recipients

  datatype RecipientMode = AllParticipants | SelectedParticipants | Contributors

  /** Why `sendBulkSMS` stops with an alert before sending anything. */
  datatype SmsError = EmptyMessage | NoneSelected | NoRecipients

  /** The ids of participants that made at least one listed contribution. */
  function ContributorIds(cs: seq<Contribution>): set<string> {
    set c | c in cs :: c.data.participantId
  }

  /** Whether the recipient mode picks participant `p`. */
  predicate Eligible(mode: RecipientMode, p: Participant, cs: seq<Contribution>, sel: seq<string>) {
    match mode
    case AllParticipants => true
    case SelectedParticipants => p.id in sel
    case Contributors => p.id in ContributorIds(cs)
  }

  /** `p.phone && p.phone.trim()`: the phone is not blank. */
  predicate HasPhone(p: Participant) {
    !IsBlank(p.data.phone)
  }

  /** The recipients `sendBulkSMS` sends to, or the alert that stops it: a
      blank message, an empty selection in selected mode, or no eligible
      participant with a phone. The mode's filter and the phone filter are
      applied one after the other, which is one filter on both tests. */
  function BulkRecipients(message: string, mode: RecipientMode, ps: seq<Participant>,
                          cs: seq<Contribution>, sel: seq<string>): (r: Result<seq<Participant>, SmsError>)
    ensures r == Failure(EmptyMessage) <==> IsBlank(message)
    ensures r == Failure(NoneSelected) <==> !IsBlank(message) && mode == SelectedParticipants && |sel| == 0
    ensures r.Success? ==> |r.value| > 0 && Seqs.IsSubsequence(r.value, ps)
    ensures r.Success? ==> forall p :: p in r.value <==> p in ps && Eligible(mode, p, cs, sel) && HasPhone(p)
    ensures r.Success? ==> forall p :: multiset(r.value)[p]
                                       == if Eligible(mode, p, cs, sel) && HasPhone(p) then multiset(ps)[p] else 0
    ensures r == Failure(NoRecipients) ==> forall p :: p in ps ==> !(Eligible(mode, p, cs, sel) && HasPhone(p))
  {
    if Trim(message) == "" then Failure(EmptyMessage)
    else if mode == SelectedParticipants && |sel| == 0 then Failure(NoneSelected)
    else
      var keep := (p: Participant) => Eligible(mode, p, cs, sel) && HasPhone(p);
      var r := Seqs.Filter(ps, keep);
      Seqs.FilterIsSubsequence(ps, keep);
      if |r| == 0 then Failure(NoRecipients) else Success(r)
  }

  /** After "select all", selected mode reaches exactly the participants
      "all" mode reaches. */
  lemma SelectAllMatchesAll(message: string, ps: seq<Participant>, cs: seq<Contribution>, other: seq<string>)
    requires |ps| > 0
    ensures BulkRecipients(message, SelectedParticipants, ps, cs, SelectAll(ps))
         == BulkRecipients(message, AllParticipants, ps, cs, other)
  {
    var sel := SelectAll(ps);
    var f := (p: Participant) => Eligible(SelectedParticipants, p, cs, sel) && HasPhone(p);
    var g := (p: Participant) => Eligible(AllParticipants, p, cs, other) && HasPhone(p);
    forall k | 0 <= k < |ps|
      ensures f(ps[k]) == g(ps[k])
    {
      assert sel[k] == ps[k].id;
    }
    Seqs.FilterCongruent(ps, f, g);
  }

  /** After "deselect all", selected mode never sends. */
  lemma DeselectAllSendsNothing(message: string, ps: seq<Participant>, cs: seq<Contribution>)
    ensures BulkRecipients(message, SelectedParticipants, ps, cs, DeselectAll()).Failure?
  {
  }

  // ---------------------------------------------------------------- substitution

  /** `selectedEvent?.name || ''` and its date and location siblings. */
  function EventName(ev: Option<Event>): string {
    if ev.Some? then ev.value.data.name else ""
  }

  function EventDate(ev: Option<Event>): string {
    if ev.Some? then ev.value.data.date else ""
  }

  function EventLocation(ev: Option<Event>): string {
    if ev.Some? then ev.value.data.location else ""
  }

  /** The personalised message: `{{name}}`, `{{eventName}}`, `{{eventDate}}`,
      `{{eventLocation}}` and `{{place}}` replaced in that order, each on the
      result of the previous. `{{amount}}` is not among them. */
  function Personalize(message: string, p: Participant, ev: Option<Event>): string {
    var m1 := ReplaceAll(message, "{{name}}", p.data.name);
    var m2 := ReplaceAll(m1, "{{eventName}}", EventName(ev));
    var m3 := ReplaceAll(m2, "{{eventDate}}", EventDate(ev));
    var m4 := ReplaceAll(m3, "{{eventLocation}}", EventLocation(ev));
    ReplaceAll(m4, "{{place}}", p.data.place)
  }

  /** Text without `{{` is never touched by a placeholder. */
  lemma NoBraceNoPlaceholder(s: string, pat: string)
    requires |pat| >= 2 && pat[..2] == "{{" && !Occurs(s, "{{")
    ensures !Occurs(s, pat)
  {
    if Occurs(s, pat) {
      OccursPrefix(s, pat, "{{");
    }
  }

  /** Every replacement step leaves `{{`-free text alone. */
  lemma StepKeepsPlain(s: string, pat: string, rep: string)
    requires |pat| >= 2 && pat[..2] == "{{" && !Occurs(s, "{{")
    ensures ReplaceAll(s, pat, rep) == s
  {
    NoBraceNoPlaceholder(s, pat);
    ReplaceAllAbsent(s, pat, rep);
  }

  /** A message without `{{` is sent as written. */
  lemma PlainMessageUnchanged(message: string, p: Participant, ev: Option<Event>)
    requires !Occurs(message, "{{")
    ensures Personalize(message, p, ev) == message
  {
    StepKeepsPlain(message, "{{name}}", p.data.name);
    StepKeepsPlain(message, "{{eventName}}", EventName(ev));
    StepKeepsPlain(message, "{{eventDate}}", EventDate(ev));
    StepKeepsPlain(message, "{{eventLocation}}", EventLocation(ev));
    StepKeepsPlain(message, "{{place}}", p.data.place);
  }

  /** `{{name}}` inside a message becomes the participant's name and the
      text around it is kept, when that text holds no `{` and the name holds
      no `$` (which `replace` would expand) and no `{{` (which later steps
      would rewrite). */
  lemma NameSubstituted(a: string, b: string, p: Participant, ev: Option<Event>)
    requires '{' !in a && '{' !in b
    requires '$' !in p.data.name && !Occurs(p.data.name, "{{")
    ensures Personalize(a + "{{name}}" + b, p, ev) == a + p.data.name + b
  {
    var m := a + p.data.name + b;
    ReplaceAllOnce(a, "{{name}}", b, p.data.name);
    ExpandLiteral(p.data.name, "{{name}}", a, b);
    NoBraceAround(a, p.data.name, b);
    PlainMessageUnchanged(m, p, ev);
    StepKeepsPlain(m, "{{name}}", p.data.name);
  }

  /** Text without `{` around a `{{`-free middle has no `{{`. */
  lemma NoBraceAround(a: string, mid: string, b: string)
    requires '{' !in a && '{' !in b && !Occurs(mid, "{{")
    ensures !Occurs(a + mid + b, "{{")
  {
    var s := a + mid + b;
    if Occurs(s, "{{") {
      var i: nat :| i <= |s| && StartsAt(s, i, "{{");
      assert s[i] == s[i..i + 2][0] == '{';
      assert s[i + 1] == s[i..i + 2][1] == '{';
      assert |a| <= i;
      assert i + 1 < |a| + |mid|;
      var j := i - |a|;
      assert mid[j..j + 2] == s[i..i + 2];
      assert StartsAt(mid, j, "{{");
    }
  }

  /** `{{amount}}`, named in the composer's template text, is never replaced. */
  lemma AmountNeverSubstituted(p: Participant, ev: Option<Event>)
    ensures Personalize("{{amount}}", p, ev) == "{{amount}}"
  {
    var m := "{{amount}}";
    assert !Occurs(m, "{{name}}") by {
      forall i: nat | i <= |m| ensures !StartsAt(m, i, "{{name}}") {
        if i + 8 <= |m| {
          assert m[i + 2] != "{{name}}"[2];
          assert m[i..i + 8][2] == m[i + 2];
        }
      }
    }
    assert !Occurs(m, "{{place}}") by {
      forall i: nat | i <= |m| ensures !StartsAt(m, i, "{{place}}") {
        if i + 9 <= |m| {
          assert m[i..i + 9][2] == m[i + 2];
        }
      }
    }
    assert !Occurs(m, "{{eventName}}");
    assert !Occurs(m, "{{eventDate}}");
    assert !Occurs(m, "{{eventLocation}}");
    ReplaceAllAbsent(m, "{{name}}", p.data.name);
    ReplaceAllAbsent(m, "{{eventName}}", EventName(ev));
    ReplaceAllAbsent(m, "{{eventDate}}", EventDate(ev));
    ReplaceAllAbsent(m, "{{eventLocation}}", EventLocation(ev));
    ReplaceAllAbsent(m, "{{place}}", p.data.place);
  }

  /** Substituted text is scanned again by the later steps: a participant
      named `{{place}}` is greeted with their place. */
  lemma SubstitutedNameIsRescanned(p: Participant, ev: Option<Event>)
    requires p.data.name == "{{place}}"
    requires '$' !in p.data.place && !Occurs(p.data.place, "{{")
    ensures Personalize("{{name}}", p, ev) == p.data.place
  {
    var m := "{{place}}";
    ReplaceAllWhole("{{name}}", m);
    ExpandLiteral(m, "{{name}}", "", "");
    assert !Occurs(m, "{{eventName}}") && !Occurs(m, "{{eventDate}}") && !Occurs(m, "{{eventLocation}}");
    ReplaceAllAbsent(m, "{{eventName}}", EventName(ev));
    ReplaceAllAbsent(m, "{{eventDate}}", EventDate(ev));
    ReplaceAllAbsent(m, "{{eventLocation}}", EventLocation(ev));
    ReplaceAllWhole(m, p.data.place);
    ExpandLiteral(p.data.place, m, "", "");
  }

  /** A `$&` in a name is expanded by `replace` to the matched placeholder,
      so the participant is greeted with the literal `{{name}}`. */
  lemma DollarInNameIsExpanded(p: Participant, ev: Option<Event>)
    requires p.data.name == "$&"
    ensures Personalize("{{name}}", p, ev) == "{{name}}"
  {
    var m := "{{name}}";
    ReplaceAllWhole(m, "$&");
    assert Expand("$&", m, "", "") == m + Expand("", m, "", "");
    assert !Occurs(m, "{{eventName}}") && !Occurs(m, "{{eventDate}}") && !Occurs(m, "{{eventLocation}}");
    assert !Occurs(m, "{{place}}");
    ReplaceAllAbsent(m, "{{eventName}}", EventName(ev));
    ReplaceAllAbsent(m, "{{eventDate}}", EventDate(ev));
    ReplaceAllAbsent(m, "{{eventLocation}}", EventLocation(ev));
    ReplaceAllAbsent(m, "{{place}}", p.data.place);
  }
}

=== FILE: sync.dfy ===
/** The offline-sync state machine of `AppComponent`: the pending-write queue,
    the `SyncStatus` record and the manual-offline flag, with one pure function
    per transition. Environment readings (the debounced reachability value,
    `navigator.onLine`, the clock) are parameters. `syncPendingChanges` is one
    atomic step: its one-second wait is a mock delay, so the status it writes
    before the wait is overwritten by the status it writes after it. */
module Sync {
  import opened Common
  import opened Records

  /** `SyncStatus`; `lastSync` is absent (`null`) until the first flush. */
  datatype SyncStatus = SyncStatus(
    online: bool, lastSync: Option<int>, pendingChanges: int, syncing: bool)

  /** The component's sync state: status, FIFO queue and manual-offline flag. */
  datatype SyncState = SyncState(
    status: SyncStatus, pendingWrites: seq<PendingWrite>, manualOffline: bool)

  /** What `manualSync` does: refuse with an alert while offline, or run the flush step. */
  datatype ManualSyncOutcome = NotOnline | SyncAttempted

  /** The state the component is constructed with. */
  function Init(): (s: SyncState)
    ensures s.status.online && !s.status.syncing && s.status.lastSync.None?
    ensures s.pendingWrites == [] && s.status.pendingChanges == 0 && !s.manualOffline
  {
    SyncState(SyncStatus(true, None, 0, false), [], false)
  }

  /** The count shown to the user agrees with the queue. */
  predicate CountAgrees(s: SyncState) {
    s.status.pendingChanges == |s.pendingWrites|
  }

  /** `syncPendingChanges`: a no-op when the queue is empty or the status says
      offline; otherwise the whole queue is flushed at time `now`. */
  function SyncPendingChanges(s: SyncState, now: int): (r: SyncState)
    ensures |s.pendingWrites| == 0 || !s.status.online ==> r == s
    ensures |s.pendingWrites| > 0 && s.status.online ==>
      && r.pendingWrites == []
      && r.status == SyncStatus(s.status.online, Some(now), 0, false)
      && r.manualOffline == s.manualOffline
  {
    if |s.pendingWrites| == 0 || !s.status.online then s
    else
      var flushing := s.(status := s.status.(syncing := true));
      flushing.(pendingWrites := [],
                status := flushing.status.(pendingChanges := 0, lastSync := Some(now), syncing := false))
  }

  /** `addPendingWrite`: the write is appended with `retryCount` 0 and the
      count refreshed; when the status says online the flush step follows,
      which then empties the queue. */
  function AddPendingWrite(s: SyncState, collection: string, data: Payload, now: int): (r: SyncState)
    ensures r.manualOffline == s.manualOffline && r.status.online == s.status.online
    ensures !s.status.online ==>
      && r.pendingWrites == s.pendingWrites + [PendingWrite(collection, data, now, 0)]
      && r.status.pendingChanges == |s.pendingWrites| + 1
      && !r.status.syncing
      && r.status.lastSync == s.status.lastSync
    ensures s.status.online ==>
      && r.pendingWrites == []
      && r.status.pendingChanges == 0
      && !r.status.syncing
      && r.status.lastSync == Some(now)
  {
    var queued := s.pendingWrites + [PendingWrite(collection, data, now, 0)];
    var s1 := SyncState(
      s.status.(pendingChanges := |queued|, syncing := s.status.online),
      queued, s.manualOffline);
    if s1.status.online then SyncPendingChanges(s1, now) else s1
  }

  /** The body of the 30-second timer: flush when online with something queued. */
  function PeriodicTick(s: SyncState, now: int): (r: SyncState)
    ensures !s.status.online || |s.pendingWrites| == 0 ==> r == s
    ensures s.status.online && |s.pendingWrites| > 0 ==>
      r.pendingWrites == [] && r.status.lastSync == Some(now)
  {
    if s.status.online && |s.pendingWrites| > 0 then SyncPendingChanges(s, now) else s
  }

  /** `manualSync`: refused while offline with no state change, otherwise the flush step. */
  function ManualSync(s: SyncState, now: int): (r: (SyncState, ManualSyncOutcome))
    ensures !s.status.online <==> r.1 == NotOnline
    ensures r.1 == NotOnline ==> r.0 == s
    ensures r.1 == SyncAttempted ==> r.0.pendingWrites == [] && r.0.status.online
    ensures r.1 == SyncAttempted ==> r.0 == SyncPendingChanges(s, now)
  {
    if !s.status.online then (s, NotOnline) else (SyncPendingChanges(s, now), SyncAttempted)
  }

  /** `handleNetworkChange(online)` for a debounced reachability value. The
      reconnect branch calls the flush step before `online` is updated, so the
      flush step always finds the status offline and does nothing: the queue
      is never flushed here, and `syncing` is left true whenever the network is
      up and writes are queued. */
  function HandleNetworkChange(s: SyncState, online: bool, now: int): (r: SyncState)
    ensures r.pendingWrites == s.pendingWrites
    ensures r.status.pendingChanges == s.status.pendingChanges
    ensures r.status.lastSync == s.status.lastSync
    ensures r.manualOffline == s.manualOffline
    ensures r.status.online == online
    ensures r.status.syncing <==> online && |s.pendingWrites| > 0
  {
    var s1 := if online && !s.status.online && !s.manualOffline then SyncPendingChanges(s, now) else s;
    s1.(status := s1.status.(online := online, syncing := online && |s1.pendingWrites| > 0))
  }

  /** `toggleOfflineMode`. From online it enters manual offline mode and
      nothing else changes; from offline it leaves manual offline mode, takes
      `reachable` (the value of `navigator.onLine`) as the new `online`, and
      runs the flush step, so the queue is flushed exactly when the network is
      reachable. */
  function ToggleOfflineMode(s: SyncState, reachable: bool, now: int): (r: SyncState)
    ensures r.manualOffline == s.status.online
    ensures s.status.online ==>
      r == s.(status := s.status.(online := false), manualOffline := true)
    ensures !s.status.online ==> r.status.online == reachable
    ensures !s.status.online ==>
      (r.pendingWrites == [] <==> reachable || s.pendingWrites == [])
    ensures !s.status.online && !reachable ==> r.pendingWrites == s.pendingWrites
    ensures !s.status.online && reachable && |s.pendingWrites| > 0 ==>
      r.status.lastSync == Some(now) && r.status.pendingChanges == 0 && !r.status.syncing
    ensures !s.status.online && (!reachable || s.pendingWrites == []) ==>
      r.status == s.status.(online := reachable) && r.pendingWrites == s.pendingWrites
  {
    var wasOnline := s.status.online;
    if wasOnline then
      s.(status := s.status.(online := false), manualOffline := true)
    else
      SyncPendingChanges(s.(status := s.status.(online := reachable), manualOffline := false), now)
  }

  /** Every transition keeps the pending count equal to the queue length. */
  lemma CountAgreesPreserved(s: SyncState, collection: string, data: Payload, b: bool, now: int)
    requires CountAgrees(s)
    ensures CountAgrees(AddPendingWrite(s, collection, data, now))
    ensures CountAgrees(SyncPendingChanges(s, now))
    ensures CountAgrees(PeriodicTick(s, now))
    ensures CountAgrees(ManualSync(s, now).0)
    ensures CountAgrees(HandleNetworkChange(s, b, now))
    ensures CountAgrees(ToggleOfflineMode(s, b, now))
  {
  }

  /** The flush step itself also restores the count whenever it flushes, even
      from a state where the two disagreed. */
  lemma FlushRepairsCount(s: SyncState, now: int)
    requires s.status.online && |s.pendingWrites| > 0
    ensures CountAgrees(SyncPendingChanges(s, now))
  {
  }

  /** The timer's own guard adds nothing: a tick is exactly the flush step. */
  lemma PeriodicTickIsFlush(s: SyncState, now: int)
    ensures PeriodicTick(s, now) == SyncPendingChanges(s, now)
  {
  }

  /** A reconnect never flushes the queue, whatever the manual-offline flag:
      the flush step it calls sees the stale offline status. */
  lemma ReconnectNeverFlushes(s: SyncState, now: int)
    requires !s.status.online && |s.pendingWrites| > 0
    ensures HandleNetworkChange(s, true, now).pendingWrites == s.pendingWrites
    ensures HandleNetworkChange(s, true, now).status.syncing
    ensures HandleNetworkChange(s, true, now).status.lastSync == s.status.lastSync
  {
  }

  /** A network signal overrides manual offline mode: while the flag is set, a
      reachable signal still turns the status online (only the flush call is
      skipped) and the flag stays set. */
  lemma NetworkOverridesManualOffline(s: SyncState, now: int)
    requires s.manualOffline
    ensures HandleNetworkChange(s, true, now).status.online
    ensures HandleNetworkChange(s, true, now).manualOffline
  {
  }

  /** `syncing` implies `online` is kept by every transition except the toggle
      into manual offline mode, which turns `online` off and leaves `syncing`
      as it was. */
  predicate SyncingOnlyOnline(s: SyncState) {
    s.status.syncing ==> s.status.online
  }

  lemma SyncingOnlyOnlinePreserved(s: SyncState, collection: string, data: Payload, b: bool, now: int)
    requires SyncingOnlyOnline(s)
    ensures SyncingOnlyOnline(AddPendingWrite(s, collection, data, now))
    ensures SyncingOnlyOnline(SyncPendingChanges(s, now))
    ensures SyncingOnlyOnline(PeriodicTick(s, now))
    ensures SyncingOnlyOnline(ManualSync(s, now).0)
    ensures SyncingOnlyOnline(HandleNetworkChange(s, b, now))
    ensures !s.status.online ==> SyncingOnlyOnline(ToggleOfflineMode(s, b, now))
  {
  }

  lemma ToggleBreaksSyncingOnlyOnline(s: SyncState, reachable: bool, now: int)
    requires s.status.online && s.status.syncing
    ensures !SyncingOnlyOnline(ToggleOfflineMode(s, reachable, now))
  {
  }
}

=== FILE: sync_trace.dfy ===
/** Sequences of sync-state transitions: the inputs the component reacts to,
    the properties that hold along any run of them, and the runs that show the
    code's behaviour on reconnect and on the manual-offline toggle. */
module SyncTrace {
  import opened Common
  import opened Records
  import opened Sync

  /** One event the sync state machine reacts to, with its environment readings. */
  datatype Input =
    | Enqueue(collection: string, data: Payload, now: int)
    | Tick(now: int)
    | Manual(now: int)
    | Network(online: bool, now: int)
    | Toggle(reachable: bool, now: int)

  function Step(s: SyncState, i: Input): SyncState {
    match i
    case Enqueue(c, d, t) => AddPendingWrite(s, c, d, t)
    case Tick(t) => PeriodicTick(s, t)
    case Manual(t) => ManualSync(s, t).0
    case Network(o, t) => HandleNetworkChange(s, o, t)
    case Toggle(r, t) => ToggleOfflineMode(s, r, t)
  }

  function Run(s: SyncState, inputs: seq<Input>): SyncState
    decreases |inputs|
  {
    if |inputs| == 0 then s else Run(Step(s, inputs[0]), inputs[1..])
  }

  /** Start-up: the timer fires at once, then the debounced initial
      reachability reaches `handleNetworkChange`. */
  function Startup(reachable: bool, now: int): (s: SyncState)
    ensures s.status.online == reachable && s.pendingWrites == [] && !s.status.syncing
    ensures CountAgrees(s) && !s.manualOffline && s.status.lastSync.None?
  {
    HandleNetworkChange(PeriodicTick(Init(), now), reachable, now)
  }

  /** Along any run, the pending count keeps agreeing with the queue length. */
  lemma {:induction false} CountAgreesAlongRun(s: SyncState, inputs: seq<Input>)
    requires CountAgrees(s)
    ensures CountAgrees(Run(s, inputs))
    decreases |inputs|
  {
    if |inputs| > 0 {
      CountAgreesStep(s, inputs[0]);
      CountAgreesAlongRun(Step(s, inputs[0]), inputs[1..]);
    }
  }

  /** One step of any kind keeps the pending count equal to the queue length. */
  lemma CountAgreesStep(s: SyncState, i: Input)
    requires CountAgrees(s)
    ensures CountAgrees(Step(s, i))
  {
  }

  /** The time reading an input carries. */
  function TimeOf(i: Input): int {
    match i
    case Enqueue(_, _, t) => t
    case Tick(t) => t
    case Manual(t) => t
    case Network(_, t) => t
    case Toggle(_, t) => t
  }

  /** No step loses a write: either the old queue survives as a prefix of the
      new one (nothing removed, nothing reordered), or the step flushed the
      whole queue and stamped `lastSync` with its own time. */
  lemma StepKeepsOrFlushes(s: SyncState, i: Input)
    ensures var r := Step(s, i);
      || (|s.pendingWrites| <= |r.pendingWrites| && r.pendingWrites[..|s.pendingWrites|] == s.pendingWrites)
      || (r.pendingWrites == [] && r.status.lastSync == Some(TimeOf(i)))
  {
  }

  /** The writes a run of offline enqueues appends, in order. */
  function Queued(inputs: seq<Input>): seq<PendingWrite>
    requires forall k :: 0 <= k < |inputs| ==> inputs[k].Enqueue?
  {
    if |inputs| == 0 then []
    else
      [PendingWrite(inputs[0].collection, inputs[0].data, inputs[0].now, 0)] + Queued(inputs[1..])
  }

  /** While offline, enqueues are kept first-in first-out: the queue grows by
      exactly the enqueued writes, in the order they were made, and the count
      follows it. */
  lemma {:induction false} OfflineEnqueuesAreFifo(s: SyncState, inputs: seq<Input>)
    requires !s.status.online
    requires forall k :: 0 <= k < |inputs| ==> inputs[k].Enqueue?
    ensures Run(s, inputs).pendingWrites == s.pendingWrites + Queued(inputs)
    ensures Run(s, inputs).status.pendingChanges == |s.pendingWrites| + |inputs| || |inputs| == 0
    ensures !Run(s, inputs).status.online
    decreases |inputs|
  {
    if |inputs| > 0 {
      var s1 := Step(s, inputs[0]);
      var w := PendingWrite(inputs[0].collection, inputs[0].data, inputs[0].now, 0);
      assert s1.pendingWrites == s.pendingWrites + [w];
      assert Queued(inputs) == [w] + Queued(inputs[1..]);
      OfflineEnqueuesAreFifo(s1, inputs[1..]);
      assert s.pendingWrites + Queued(inputs)
          == s1.pendingWrites + Queued(inputs[1..]);
      if |inputs| == 1 {
        assert inputs[1..] == [];
      }
    }
  }

  /** Enqueue while offline, then the network comes back: the reconnect branch
      calls the flush step, but before `online` is updated, so nothing is
      flushed; the status shows online and syncing with the write still
      pending, and the next timer tick flushes it. */
  lemma ReconnectThenTickFlushes(s: SyncState, w: Payload, t1: int, t2: int, t3: int)
    requires !s.status.online && !s.manualOffline && s.pendingWrites == []
    ensures var a := Step(s, Enqueue(EventsCollection, w, t1));
      && a.status.pendingChanges == 1
      && var b := Step(a, Network(true, t2));
      && b.pendingWrites == a.pendingWrites && b.status.online && b.status.syncing
      && b.status.pendingChanges == 1
      && var c := Step(b, Tick(t3));
      && c.pendingWrites == [] && c.status.pendingChanges == 0
      && !c.status.syncing && c.status.lastSync == Some(t3)
  {
  }

  /** Timer ticks while offline never flush, however many writes wait. */
  lemma OfflineTicksDoNothing(s: SyncState, t: int)
    requires !s.status.online
    ensures Step(s, Tick(t)) == s && Step(s, Manual(t)) == s
  {
  }

  /** Manual offline, some writes, then back online with the network
      reachable: the toggle back flushes every queued write in one step. */
  lemma ToggleRoundTripFlushesOnce(s: SyncState, inputs: seq<Input>, t1: int, t2: int)
    requires s.status.online && s.pendingWrites == []
    requires forall k :: 0 <= k < |inputs| ==> inputs[k].Enqueue?
    requires |inputs| > 0
    ensures var off := Run(Step(s, Toggle(true, t1)), inputs);
      && off.pendingWrites == Queued(inputs)
      && off.manualOffline
      && var back := Step(off, Toggle(true, t2));
      && back.pendingWrites == [] && back.status.online && !back.manualOffline
      && back.status.lastSync == Some(t2) && back.status.pendingChanges == 0
  {
    var s1 := Step(s, Toggle(true, t1));
    assert !s1.status.online && s1.manualOffline;
    OfflineEnqueuesAreFifo(s1, inputs);
    ManualFlagSurvivesEnqueues(s1, inputs);
    var off := Run(s1, inputs);
    assert |off.pendingWrites| > 0 && !off.status.online;
    var back := Step(off, Toggle(true, t2));
    assert back == SyncPendingChanges(off.(status := off.status.(online := true), manualOffline := false), t2);
  }

  /** Enqueues never touch the manual-offline flag. */
  lemma {:induction false} ManualFlagSurvivesEnqueues(s: SyncState, inputs: seq<Input>)
    requires forall k :: 0 <= k < |inputs| ==> inputs[k].Enqueue?
    ensures Run(s, inputs).manualOffline == s.manualOffline
    decreases |inputs|
  {
    if |inputs| > 0 {
      ManualFlagSurvivesEnqueues(Step(s, inputs[0]), inputs[1..]);
    }
  }

  /** From start-up, a run reaches a state that shows `syncing` while offline:
      go offline, queue a write, reconnect (which sets `syncing` without
      flushing), then toggle manual offline mode on. */
  lemma SyncingWhileOfflineIsReachable(w: Payload, t: int)
    ensures var s := Run(Startup(true, t),
        [Network(false, t), Enqueue(EventsCollection, w, t), Network(true, t), Toggle(true, t)]);
      s.status.syncing && !s.status.online && s.manualOffline && |s.pendingWrites| == 1
  {
    var s0 := Startup(true, t);
    var s1 := Step(s0, Network(false, t));
    var s2 := Step(s1, Enqueue(EventsCollection, w, t));
    var s3 := Step(s2, Network(true, t));
    var s4 := Step(s3, Toggle(true, t));
    var ins := [Network(false, t), Enqueue(EventsCollection, w, t), Network(true, t), Toggle(true, t)];
    assert Run(s4, ins[4..]) == s4;
    assert Run(s3, ins[3..]) == s4;
    assert Run(s2, ins[2..]) == s4;
    assert Run(s1, ins[1..]) == s4;
  }
}

=== FILE: text.dfy ===
/** JavaScript string behaviour the component relies on: white space and `trim`,
    decimal rendering of integers, UTF-16 length, and `String.prototype.replace`
    with a global literal pattern and a string replacement. */
module Text {

  /** The characters matched by JavaScript's `\s` class and removed by `trim`:
      the WhiteSpace and LineTerminator code points of ECMAScript. */
  predicate IsJsWhitespace(c: char) {
    || c == '\t' || c == '\n' || c == '\U{000B}' || c == '\U{000C}' || c == '\r'
    || c == ' ' || c == '\U{00A0}' || c == '\U{1680}'
    || ('\U{2000}' <= c <= '\U{200A}')
    || c == '\U{2028}' || c == '\U{2029}' || c == '\U{202F}' || c == '\U{205F}'
    || c == '\U{3000}' || c == '\U{FEFF}'
  }

  /** Every character is white space (so the empty string is blank). */
  predicate IsBlank(s: string) {
    forall k :: 0 <= k < |s| ==> IsJsWhitespace(s[k])
  }

  /** Leading white space removed: a suffix of `s`, the dropped part blank. */
  function TrimStart(s: string): (r: string)
    ensures |r| <= |s| && r == s[|s| - |r|..]
    ensures forall k :: 0 <= k < |s| - |r| ==> IsJsWhitespace(s[k])
    ensures |r| > 0 ==> !IsJsWhitespace(r[0])
  {
    if |s| > 0 && IsJsWhitespace(s[0]) then
      var r := TrimStart(s[1..]);
      assert forall k :: 1 <= k < |s| ==> s[1..][k - 1] == s[k];
      r
    else s
  }

  /** Trailing white space removed: a prefix of `s`, the dropped part blank. */
  function TrimEnd(s: string): (r: string)
    ensures |r| <= |s| && r == s[..|r|]
    ensures forall k :: |r| <= k < |s| ==> IsJsWhitespace(s[k])
    ensures |r| > 0 ==> !IsJsWhitespace(r[|r| - 1])
  {
    if |s| > 0 && IsJsWhitespace(s[|s| - 1]) then
      TrimEnd(s[..|s| - 1])
    else s
  }

  /** `String.prototype.trim`. The result is empty exactly when `s` is blank;
      otherwise it neither starts nor ends with white space. */
  function Trim(s: string): (r: string)
    ensures |r| <= |s|
    ensures exists i, j :: 0 <= i <= j <= |s| && r == s[i..j] && IsBlank(s[..i]) && IsBlank(s[j..])
    ensures |r| == 0 <==> IsBlank(s)
    ensures |r| > 0 ==> !IsJsWhitespace(r[0]) && !IsJsWhitespace(r[|r| - 1])
  {
    TrimEmptyIffBlank(s);
    var i := |s| - |TrimStart(s)|;
    TrimIsMiddle(s, i, i + |TrimEnd(TrimStart(s))|);
    TrimEnd(TrimStart(s))
  }

  /** The trimmed text is the slice of `s` between a blank prefix and a blank suffix. */
  lemma TrimIsMiddle(s: string, i: nat, j: nat)
    requires i == |s| - |TrimStart(s)| && j == i + |TrimEnd(TrimStart(s))|
    ensures j <= |s| && TrimEnd(TrimStart(s)) == s[i..j]
    ensures IsBlank(s[..i]) && IsBlank(s[j..])
  {
    TrimSlice(s, i, j);
    TrimStartDropsBlank(s);
    TrimEndSuffix(s, i, j);
  }

  lemma TrimSlice(s: string, i: nat, j: nat)
    requires i == |s| - |TrimStart(s)| && j == i + |TrimEnd(TrimStart(s))|
    ensures j <= |s| && TrimEnd(TrimStart(s)) == s[i..j]
  {
    SliceOfSuffix(s, TrimStart(s), TrimEnd(TrimStart(s)), i);
  }

  lemma TrimEndSuffix(s: string, i: nat, j: nat)
    requires i == |s| - |TrimStart(s)| && j == i + |TrimEnd(TrimStart(s))|
    ensures j <= |s| && IsBlank(s[j..])
  {
    var a := TrimStart(s);
    TrimEndDropsBlank(a);
    SuffixOfSuffix(s, a, i, j - i);
  }

  /** A prefix of a suffix of `s` is a middle slice of `s`. */
  lemma SliceOfSuffix(s: string, a: string, b: string, i: nat)
    requires i <= |s| && a == s[i..] && |b| <= |a| && b == a[..|b|]
    ensures b == s[i..i + |b|]
  {
  }

  /** A suffix of a suffix of `s` is a suffix of `s`. */
  lemma SuffixOfSuffix(s: string, a: string, i: nat, n: nat)
    requires i <= |s| && a == s[i..] && n <= |a|
    ensures a[n..] == s[i + n..]
  {
  }

  lemma TrimStartDropsBlank(s: string)
    ensures IsBlank(s[..|s| - |TrimStart(s)|])
  {
    var i := |s| - |TrimStart(s)|;
    forall k | 0 <= k < i
      ensures IsJsWhitespace(s[..i][k])
    {
      assert s[..i][k] == s[k];
    }
  }

  lemma TrimEndDropsBlank(a: string)
    ensures IsBlank(a[|TrimEnd(a)|..])
  {
    var n := |TrimEnd(a)|;
    forall k | 0 <= k < |a| - n
      ensures IsJsWhitespace(a[n..][k])
    {
      assert a[n..][k] == a[n + k];
    }
  }

  lemma TrimEmptyIffBlank(s: string)
    ensures |TrimEnd(TrimStart(s))| == 0 <==> IsBlank(s)
  {
    var a := TrimStart(s);
    if |TrimEnd(a)| == 0 {
      assert |a| == 0;
    }
  }

  /** A decimal digit '0'..'9' (the complement of JavaScript's `\D`). */
  predicate IsDigit(c: char) {
    '0' <= c <= '9'
  }

  predicate AllDigits(s: string) {
    forall k :: 0 <= k < |s| ==> IsDigit(s[k])
  }

  /** A non-empty digit string without a superfluous leading zero. */
  predicate IsCanonicalDecimal(s: string) {
    |s| > 0 && AllDigits(s) && (s[0] == '0' ==> |s| == 1)
  }

  function DigitChar(d: nat): (c: char)
    requires d < 10
    ensures IsDigit(c)
  {
    (48 + d) as char
  }

  function DigitValue(c: char): (d: nat)
    requires IsDigit(c)
    ensures d < 10 && DigitChar(d) == c
  {
    (c as int) - 48
  }

  /** How JavaScript renders a non-negative integer below 10^21 as a string. */
  function Decimal(n: nat): (r: string)
    ensures IsCanonicalDecimal(r)
  {
    if n < 10 then [DigitChar(n)] else Decimal(n / 10) + [DigitChar(n % 10)]
  }

  /** The number a digit string denotes. */
  function DecimalValue(s: string): nat
    requires AllDigits(s)
  {
    if |s| == 0 then 0 else DecimalValue(s[..|s| - 1]) * 10 + DigitValue(s[|s| - 1])
  }

  /** Reading back a rendered number gives the number. */
  lemma {:induction false} DecimalRoundTrip(n: nat)
    ensures DecimalValue(Decimal(n)) == n
  {
    if n >= 10 {
      var d := Decimal(n);
      assert d[..|d| - 1] == Decimal(n / 10);
      DecimalRoundTrip(n / 10);
    }
  }

  /** A digit string that does not start with '0' denotes a positive number. */
  lemma {:induction false} LeadingNonZeroPositive(s: string)
    requires |s| > 0 && AllDigits(s) && s[0] != '0'
    ensures DecimalValue(s) > 0
  {
    if |s| > 1 {
      LeadingNonZeroPositive(s[..|s| - 1]);
    }
  }

  /** Rendering the value of a canonical digit string gives the string back. */
  lemma {:induction false} CanonicalDecimalRoundTrip(s: string)
    requires IsCanonicalDecimal(s)
    ensures Decimal(DecimalValue(s)) == s
  {
    if |s| > 1 {
      var p := s[..|s| - 1];
      LeadingNonZeroPositive(p);
      CanonicalDecimalRoundTrip(p);
      var n := DecimalValue(s);
      assert n / 10 == DecimalValue(p) && n % 10 == DigitValue(s[|s| - 1]);
      assert s == p + [s[|s| - 1]];
    }
  }

  /** Number of UTF-16 code units, which is what JavaScript's `length` counts. */
  function Utf16Length(s: string): (n: nat)
    ensures |s| <= n <= 2 * |s|
    ensures n == |s| <==> forall k :: 0 <= k < |s| ==> s[k] as int <= 0xFFFF
  {
    if |s| == 0 then 0
    else
      var rest := Utf16Length(s[1..]);
      assert forall k :: 1 <= k < |s| ==> s[k] == s[1..][k - 1];
      (if s[0] as int > 0xFFFF then 2 else 1) + rest
  }

  /** `pat` occurs in `s` starting at index `i`. */
  predicate StartsAt(s: string, i: nat, pat: string) {
    i + |pat| <= |s| && s[i..i + |pat|] == pat
  }

  /** `pat` occurs somewhere in `s` (JavaScript's `includes`). */
  predicate Occurs(s: string, pat: string) {
    exists i: nat :: i <= |s| && StartsAt(s, i, pat)
  }

  /** The replacement text JavaScript substitutes for one match of a pattern
      without capture groups: `$$` is a dollar sign, `$&` the matched text,
      `` $` `` the text before the match and `$'` the text after it; any other
      `$` stands for itself. */
  function Expand(rep: string, matched: string, before: string, after: string): string
  {
    if |rep| == 0 then ""
    else if rep[0] == '$' && |rep| >= 2 && rep[1] in "$&`'" then
      var piece :=
        if rep[1] == '$' then "$"
        else if rep[1] == '&' then matched
        else if rep[1] == '`' then before
        else after;
      piece + Expand(rep[2..], matched, before, after)
    else [rep[0]] + Expand(rep[1..], matched, before, after)
  }

  /** A replacement without a dollar sign is inserted literally. */
  lemma {:induction false} ExpandLiteral(rep: string, matched: string, before: string, after: string)
    requires '$' !in rep
    ensures Expand(rep, matched, before, after) == rep
  {
    if |rep| > 0 {
      assert rep[1..] <= rep[1..];
      assert '$' !in rep[1..] by {
        assert forall k :: 0 <= k < |rep| - 1 ==> rep[1..][k] == rep[k + 1];
      }
      ExpandLiteral(rep[1..], matched, before, after);
    }
  }

  /** `s.replace(/pat/g, rep)` for a literal, non-empty `pat`: matches are found
      left to right, never overlapping, and each is replaced by `Expand`. */
  function ReplaceAll(s: string, pat: string, rep: string): string
    requires |pat| > 0
  {
    ReplaceFrom(s, pat, rep, 0)
  }

  /** The scan of `ReplaceAll` from index `i` on. */
  function ReplaceFrom(s: string, pat: string, rep: string, i: nat): string
    requires |pat| > 0 && i <= |s|
    decreases |s| - i
  {
    if i == |s| then ""
    else if StartsAt(s, i, pat) then
      Expand(rep, pat, s[..i], s[i + |pat|..]) + ReplaceFrom(s, pat, rep, i + |pat|)
    else [s[i]] + ReplaceFrom(s, pat, rep, i + 1)
  }

  /** Where the pattern does not occur from `i` on, the scan copies the rest. */
  lemma {:induction false} ReplaceFromAbsent(s: string, pat: string, rep: string, i: nat)
    requires |pat| > 0 && i <= |s|
    requires forall j: nat :: i <= j ==> !StartsAt(s, j, pat)
    ensures ReplaceFrom(s, pat, rep, i) == s[i..]
    decreases |s| - i
  {
    if i < |s| {
      ReplaceFromAbsent(s, pat, rep, i + 1);
      assert s[i..] == [s[i]] + s[i + 1..];
    }
  }

  /** Replacing a pattern that does not occur leaves the string unchanged. */
  lemma ReplaceAllAbsent(s: string, pat: string, rep: string)
    requires |pat| > 0 && !Occurs(s, pat)
    ensures ReplaceAll(s, pat, rep) == s
  {
    ReplaceFromAbsent(s, pat, rep, 0);
  }

  /** A string that is exactly the pattern becomes the (expanded) replacement. */
  lemma ReplaceAllWhole(pat: string, rep: string)
    requires |pat| > 0
    ensures ReplaceAll(pat, pat, rep) == Expand(rep, pat, "", "")
  {
    assert pat[0..|pat|] == pat;
    assert StartsAt(pat, 0, pat);
    assert pat[..0] == "" && pat[|pat|..] == "";
    assert ReplaceFrom(pat, pat, rep, |pat|) == "";
  }

  /** Where no position in `[i, j)` holds the pattern's first character, the
      scan copies that stretch unchanged. */
  lemma {:induction false} ReplaceFromCopies(s: string, pat: string, rep: string, i: nat, j: nat)
    requires |pat| > 0 && i <= j <= |s|
    requires forall k :: i <= k < j ==> s[k] != pat[0]
    ensures ReplaceFrom(s, pat, rep, i) == s[i..j] + ReplaceFrom(s, pat, rep, j)
    decreases j - i
  {
    if i < j {
      ReplaceFromCopiesOne(s, pat, rep, i);
      ReplaceFromCopies(s, pat, rep, i + 1, j);
      var rest := ReplaceFrom(s, pat, rep, j);
      assert s[i..j] == [s[i]] + s[i + 1..j];
      assert [s[i]] + (s[i + 1..j] + rest) == ([s[i]] + s[i + 1..j]) + rest;
    } else {
      assert s[i..j] == [];
    }
  }

  /** Where the pattern's first character is missing, the scan copies one character. */
  lemma ReplaceFromCopiesOne(s: string, pat: string, rep: string, i: nat)
    requires |pat| > 0 && i < |s| && s[i] != pat[0]
    ensures ReplaceFrom(s, pat, rep, i) == [s[i]] + ReplaceFrom(s, pat, rep, i + 1)
  {
    NotStartsAt(s, i, pat);
  }

  /** A pattern cannot start where its first character is missing. */
  lemma NotStartsAt(s: string, i: nat, pat: string)
    requires |pat| > 0 && i < |s| && s[i] != pat[0]
    ensures !StartsAt(s, i, pat)
  {
    if i + |pat| <= |s| {
      assert s[i..i + |pat|][0] == s[i];
    }
  }

  /** One occurrence of the pattern, with its first character nowhere else in
      the text, is replaced by the expanded replacement and nothing else changes. */
  lemma ReplaceAllOnce(a: string, pat: string, b: string, rep: string)
    requires |pat| > 0 && pat[0] !in a && pat[0] !in b
    ensures ReplaceAll(a + pat + b, pat, rep) == a + Expand(rep, pat, a, b) + b
  {
    var s := a + pat + b;
    var m := |a| + |pat|;
    ThreePartSlices(a, pat, b);
    ReplaceFromCopies(s, pat, rep, 0, |a|);
    assert ReplaceFrom(s, pat, rep, |a|)
        == Expand(rep, pat, a, b) + ReplaceFrom(s, pat, rep, m);
    ReplaceFromCopies(s, pat, rep, m, |s|);
  }

  /** The pieces of a three-part concatenation, as slices of it. */
  lemma ThreePartSlices(a: string, pat: string, b: string)
    requires |pat| > 0 && pat[0] !in a && pat[0] !in b
    ensures var s := a + pat + b; var m := |a| + |pat|;
      && s[0..|a|] == a && s[..|a|] == a && s[m..] == b && s[m..|s|] == b
      && StartsAt(s, |a|, pat)
      && (forall k :: 0 <= k < |a| ==> s[k] != pat[0])
      && (forall k :: m <= k < |s| ==> s[k] != pat[0])
  {
    var s := a + pat + b;
    var m := |a| + |pat|;
    assert s[|a|..m] == pat;
    assert forall k :: 0 <= k < |a| ==> s[k] == a[k];
    assert forall k :: m <= k < |s| ==> s[k] == b[k - m];
  }

  /** A pattern that begins with `head` can only occur where `head` does. */
  lemma OccursPrefix(s: string, pat: string, head: string)
    requires |head| <= |pat| && pat[..|head|] == head
    requires Occurs(s, pat)
    ensures Occurs(s, head)
  {
    var i: nat :| i <= |s| && StartsAt(s, i, pat);
    assert i + |pat| <= |s|;
    assert s[i..i + |head|] == s[i..i + |pat|][..|head|];
    assert StartsAt(s, i, head);
  }
}
